=== FILE: README.md ===
# Grocify: the dish-aggregation controller in Dafny

Grocify turns a list of dishes into a shopping list. The user types a dish
name and picks a suggestion. Each dish is a recipe from a public meal catalog
(TheMealDB). The shopping list is the sorted union of the dishes' ingredients.

The controller exists twice:

- a React client, `App.jsx` plus `DishSearch.jsx`, which talks to a small relay
  server;
- the older browser script `legacy/app.js`, which talks to the catalog directly.

This project models both controllers and the relay's two routes as pure
functions over immutable datatypes, and proves what the code promises about
them.

Modules, one per concern:

| module | file | models |
|---|---|---|
| `Wrappers` | wrappers.dfy | `Option` and `Fetch` (a lookup that failed, or its answer) |
| `Text` | text.dfy | `trim` (ECMAScript white space and line terminators), ASCII `toLowerCase`, and the default sort order as lexicographic order on `seq<char>` |
| `Seqs` | seqs.dfy | `filter`, `slice(0, n)` |
| `Recipe` | recipe.dfy | catalog records (`Meal`: ingredient fields as a map from position to optional text), the catalog as a function `Catalog`, `extractIngredients` |
| `Dishes` | dishes.dfy | the dish record, the case-insensitive name test, the `removeDish` filter |
| `Shopping` | shopping.dfy | `generateShoppingList`: `Set` union, `Array.from`, `sort` |
| `Server` | server.dfy | `/api/search` and `/api/dish/:name` of `server/index.js` and `api/index.js` (identical logic) |
| `Debounce` | debounce.dfy | the legacy `debounce` closure as a timer state machine with explicit time |
| `App` | app.dfy | `App.jsx`'s `addDish`, `removeDish`, `generateShoppingList`, `canGenerate` |
| `Selector` | selector.dfy | `DishSearch.jsx`: search effect, `handleAdd`, `handleKeyDown`, hover and click |
| `Client` | client.dfy | the React client as a whole: the two components plus the effect's pending timer |
| `Legacy` | legacy.dfy | `legacy/app.js`: `showSuggestions`, `fetchDish`, `addDish`, `removeDish`, `updateGenerateButton`, `generateShoppingList`, its debounced search; the page as written (`Dispatch`) and with two defects corrected (`DispatchCorrected`, see Findings) |

How the outside world appears in the model:

- Network lookups are a parameter. `Catalog` maps a query to `Failed` or to
  `Fetched` of the `meals` array, which may be `null`. The legacy client
  queries the catalog directly. The React client goes through
  `Server.SearchEndpoint` and `Server.DishEndpoint`, and a 400 or 500
  response becomes `Failed`, because `axios` throws on it.
- Time is a parameter. Every gesture carries the instant it happens at, and a
  `Tick` lets a pending timer fire.
- `extractIngredients` is the same in `App.jsx` and `legacy/app.js`; both
  clients use `Recipe.Ingredients`.

Three behaviours of the code that the model keeps:

- In `DishSearch.jsx` a failed search is caught and only logged. The previous
  suggestions stay on screen; they are not emptied.
- A `null` search result empties the suggestions but leaves `selectedIndex`
  where it was.
- Escape with no suggestions returns early. It is a no-op, and the index is
  not reset.

## Model

| member | source | states |
|---|---|---|
| Text.Trim | client/src/App.jsx:14-15 | the result is empty exactly when the text is blank, and otherwise neither starts nor ends with white space |
| Text.TrimIsSlice | legacy/app.js:108 | the trimmed text is a contiguous piece of the input with only white space cut from both ends |
| Text.TrimIdempotent | legacy/app.js:38 | trimming twice gives the same as trimming once |
| Text.TrimUnpadded | legacy/app.js:108 | text that neither starts nor ends with white space is its own trim |
| Text.Lower | client/src/App.jsx:22 | lower-casing keeps the length and maps each character independently, ASCII capitals to small letters |
| Text.CaseVariantsAreSame | legacy/app.js:117 | "Pasta" and "PASTA" match up to case; "Pasta" and "Pesto" do not |
| Text.LessIsFirstDifference | client/src/App.jsx:45 | the sort order holds exactly when the first differing character is smaller or the first text is a proper prefix |
| Text.LessIrreflexive | client/src/App.jsx:45 | no text sorts before itself |
| Text.LessTransitive | client/src/App.jsx:45 | the sort order is transitive |
| Text.LessTotal | client/src/App.jsx:45 | of two different texts, one sorts before the other |
| Text.LessAsymmetric | legacy/app.js:192 | two texts never sort before each other |
| Seqs.Filter | client/src/App.jsx:36 | the result keeps exactly the elements that pass, is no longer than the input, and is the input when all pass |
| Seqs.FilterDistributes | legacy/app.js:150 | filtering a concatenation filters each part, so the relative order is kept |
| Seqs.Take | legacy/app.js:54 | the first `n` elements, or all of them when there are fewer |
| Recipe.Ingredients | client/src/App.jsx:10-19 | at most 20 items, each non-empty and already trimmed |
| Recipe.ScanTrimmed | client/src/App.jsx:12-16 | every item the scan yields is non-empty and already trimmed |
| Recipe.ScanFollowsKept | client/src/App.jsx:12-16 | item k is the trimmed text of the k-th kept field from the scan's start |
| Recipe.ScanSkipsUnkept | client/src/App.jsx:14 | positions that are missing or blank contribute nothing |
| Recipe.IngredientsFollowPositions | legacy/app.js:92-105 | there is one item per present, non-blank field, in increasing position order, each the trimmed field |
| Recipe.ExtractionExample | client/src/App.jsx:10-19 | fields 1 "Flour", 3 " Sugar ", 20 "Salt", with all others blank or missing, give ["Flour", "Sugar", "Salt"] |
| Recipe.ExtractionExampleHolds | legacy/app.js:94-101 | a concrete record with blank, null and 21st fields gives ["Flour", "Sugar", "Salt"] |
| Dishes.AppendKeepsDistinct | client/src/App.jsx:22-32 | appending a dish whose name matches no present name up to case keeps all names distinct up to case |
| Dishes.Without | client/src/App.jsx:36 | keeps exactly the dishes not named exactly `name`; with no such dish the collection is unchanged |
| Dishes.WithoutDistributes | legacy/app.js:150 | the removal filter works piecewise, so kept dishes stay in order |
| Dishes.WithoutAppend | legacy/app.js:150 | read from the back, a dish is kept after the earlier kept ones exactly when its name differs |
| Dishes.WithoutKeepsDistinct | client/src/App.jsx:36 | removal keeps names distinct up to case |
| Shopping.AllIngredients | client/src/App.jsx:42-44 | a text is in the result exactly when some dish has it as an ingredient |
| Shopping.Dedup | client/src/App.jsx:45 | `Array.from(new Set(xs))` has no repeats and the same members as `xs` |
| Shopping.Insert | client/src/App.jsx:45 | inserting a new text into an ascending list gives an ascending list with one more element, the old ones plus it |
| Shopping.Sort | client/src/App.jsx:45 | a repeat-free list sorts into an ascending list with the same members and length |
| Shopping.ShoppingList | client/src/App.jsx:40-46 | strictly ascending, holds exactly the ingredients of some dish, and empty for no dishes |
| Shopping.AscendingHasNoDuplicates | legacy/app.js:192 | an ascending list repeats nothing |
| Shopping.AscendingUnique | client/src/App.jsx:45 | two ascending lists with the same members are equal, so any correct sort gives the same list |
| Shopping.ShoppingListDependsOnlyOnUnion | legacy/app.js:185-194 | collections with the same ingredient union generate the same list |
| Shopping.ShoppingListIgnoresDishOrder | client/src/App.jsx:42-45 | reordering the dishes does not change the list |
| Server.FirstSameName | server/index.js:42 | the index of the first meal whose name equals the query up to case; none when no meal does |
| Server.BestMatch | server/index.js:42 | none exactly for an empty list; otherwise a member of the list, the first exact hit up to case if there is one, else the first meal |
| Server.DishEndpoint | server/index.js:36-48 | never a 400; a 500 exactly when the lookup fails; a one-meal body holding `BestMatch`'s choice among the results; `{meals: null}` exactly for null or empty results |
| Server.DishEndpointPrefersExactName | api/index.js:44-45 | with an exact hit up to case anywhere in the results, the answer is such a hit |
| Server.SearchEndpoint | server/index.js:19-33 | 400 exactly when `q` is missing or empty; otherwise 500 exactly when the lookup fails, else the catalog's body unchanged |
| Server.SearchRejectsWithoutLookup | api/index.js:22-26 | a rejected search gives the same answer for any two catalogs, so it makes no lookup |
| Debounce.LastCall | legacy/app.js:28-29 | a call that occurs among the events with no call after it; absent exactly when no event is a call |
| Debounce.PendingIsLatest | legacy/app.js:21-31 | at most one timeout is pending: the latest call's, due `wait` after it, carrying its arguments |
| Debounce.InvocationsBounded | legacy/app.js:24-29 | invocations plus the pending timeout never outnumber the calls |
| Debounce.BurstInvokesNothing | legacy/app.js:28-29 | while no timeout elapses nothing is invoked, and after a call a timeout is pending |
| Debounce.BurstThenQuiet | legacy/app.js:24-27 | after such a burst, the first tick `wait` past the last call invokes once, with the last call's arguments |
| Debounce.ThreeQuickChanges | legacy/app.js:34 | three changes within 100 ms of each other, then 300 ms of quiet, search once, for the last text |
| App.AddDish | client/src/App.jsx:21-33 | the list is untouched; the collection is unchanged exactly when the name matches up to case; otherwise exactly one dish is appended, built from the meal |
| App.RemoveDish | client/src/App.jsx:35-38 | the list is emptied; exactly the dishes not named `name` remain, in their original order (the filter `Dishes.Without`, whose order `WithoutAppend` fixes); with no such dish the collection is unchanged |
| App.GenerateShoppingList | client/src/App.jsx:40-46 | dishes are unchanged; the list is ascending and holds exactly the ingredients of some dish |
| App.AddDishKeepsDistinct | client/src/App.jsx:21-33 | adding keeps names distinct up to case |
| App.RemoveDishKeepsDistinct | client/src/App.jsx:35-38 | removing keeps names distinct up to case |
| App.AddCaseVariantRejected | client/src/App.jsx:22-25 | a second dish differing only in case is rejected, and the size grows by one only |
| App.AddDishIdempotent | client/src/App.jsx:21-33 | adding the same meal twice equals adding it once |
| App.AddThenRemoveRestores | client/src/App.jsx:28-37 | removing a just-added dish restores the collection and empties the list |
| App.RemoveAbsentClearsOnlyList | client/src/App.jsx:36-37 | removing an absent name only empties the list |
| App.GenerateIdempotent | client/src/App.jsx:40-46 | generating twice equals generating once; with no dishes the list is empty |
| App.AddRemoveScenario | client/src/App.jsx:21-38 | adding "Pasta" and removing it gives back the initial state |
| App.PastaSaladScenario | client/src/App.jsx:40-46 | dishes of {Pasta, Tomato} and {Tomato, Lettuce} generate Lettuce, Pasta, Tomato |
| Selector.Received | client/src/components/DishSearch.jsx:15 | an error status is a failed request; a body passes its `meals` on |
| Selector.OnSearchResult | client/src/components/DishSearch.jsx:11-31 | input kept; blank query empties suggestions; failure changes nothing; null empties suggestions; otherwise the first five results in order, index reset to -1; validity kept |
| Selector.BlankQueryMakesNoLookup | client/src/components/DishSearch.jsx:13-27 | a blank query gives the same state for any two catalogs |
| Selector.LookupByName | client/src/components/DishSearch.jsx:39-41 | a meal exactly when the dish route finds results, and then the relay's best match |
| Selector.HandleAdd | client/src/components/DishSearch.jsx:33-57 | no meal and empty input: no-op; a given meal is committed and all fields cleared; otherwise the looked-up meal likewise, or nothing changes when none is found |
| Selector.NotFoundKeepsInput | client/src/components/DishSearch.jsx:44-51 | a failed or empty lookup leaves the state, typed text included, as it was |
| Selector.KeyDown | client/src/components/DishSearch.jsx:59-88 | validity kept; only Enter commits or changes the input; with no suggestions shown, or for any other key, nothing changes; Escape clears suggestions and index when suggestions are shown; ArrowDown moves by at most one, never past the end; ArrowUp steps back to -1 |
| Selector.DownFromNone | client/src/components/DishSearch.jsx:70 | ArrowDown from -1 selects the first suggestion |
| Selector.UpToNone | client/src/components/DishSearch.jsx:73 | ArrowUp from 0 or -1 lands on -1 |
| Selector.PressDownClamps | client/src/components/DishSearch.jsx:70 | `n` ArrowDowns from -1 select `min(n-1, len-1)`: clamped, never wrapping |
| Selector.UpUndoesDown | client/src/components/DishSearch.jsx:68-73 | below the last suggestion, ArrowUp undoes ArrowDown |
| Selector.DownUndoesUp | client/src/components/DishSearch.jsx:68-73 | on a selected suggestion, ArrowDown undoes ArrowUp |
| Selector.EnterCommitsSelection | client/src/components/DishSearch.jsx:74-80 | Enter on a selection commits exactly that meal, whatever the catalog says |
| Selector.EnterFallsBack | client/src/components/DishSearch.jsx:60-65 | Enter with no selection or no suggestions is the typed-name `handleAdd` |
| Selector.Hover | client/src/components/DishSearch.jsx:117 | hovering suggestion `i` selects it and changes nothing else |
| Selector.Click | client/src/components/DishSearch.jsx:112-116 | clicking suggestion `i` commits exactly it and clears everything |
| Selector.Handle | client/src/components/DishSearch.jsx:17-18 | every event keeps the index within [-1, len-1] whenever suggestions are shown, with at most five of them |
| Selector.ReachableValid | client/src/components/DishSearch.jsx:70-117 | any run of events from a valid state ends in a valid state |
| Client.Mount | client/src/components/DishSearch.jsx:11-12 | mounting leaves no dishes and an empty search box, with one timeout pending for the empty input 300 ms after mounting; the invariant holds |
| Client.Settle | client/src/components/DishSearch.jsx:45-48 | a committed meal goes to `addDish`; a changed input restarts the timer `wait` from now; an unchanged one leaves it |
| Client.Dispatch | client/src/components/DishSearch.jsx:93-117 | the listeners, with `onAddDish`, `onRemoveDish` and `onGenerate` wired as in App.jsx:56-63: typing sets only the input and re-arms the search 300 ms later when it changed; hover, removal and generation leave the timer alone; typing, hover and ticks never change the dishes; removal is `App.RemoveDish`; a tick before the deadline does nothing, a due one applies the pending search |
| Client.DispatchKeepsInv | client/src/App.jsx:21-38 | every gesture keeps the selector valid, names distinct up to case, and the pending search for the current text |
| Client.ReachableKeepsInv | client/src/components/DishSearch.jsx:11-31 | every reachable client satisfies that invariant |
| Client.TypeThenWait | client/src/components/DishSearch.jsx:11-28 | typing new text and waiting 300 ms searches for that text |
| Client.EarlyTickChangesNothing | client/src/components/DishSearch.jsx:30 | a tick before the delay is over changes nothing |
| Client.DuplicateClickStillClears | client/src/components/DishSearch.jsx:112-116 | clicking a suggestion named like an added dish adds nothing but still clears the search box |
| Client.ClickAddsSuggestion | client/src/App.jsx:27-32 | clicking a new suggestion appends exactly its dish |
| Client.GenerateNeedsDishes | client/src/App.jsx:63 | with no dishes the generate button does nothing |
| Legacy.UpdateGenerateButton | legacy/app.js:181-183 | the button is disabled exactly when no dish is added; nothing else changes |
| Legacy.Unseen | legacy/app.js:52-53 | exactly the results no dish is named after exactly |
| Legacy.UnseenDistributes | legacy/app.js:52-53 | the filter works piecewise, so the results keep the catalog's order |
| Legacy.Available | legacy/app.js:52-54 | the first five unseen results, in order (all of them when fewer); each from the search and not named like a dish; empty exactly when every result is so named |
| Legacy.AvailableOfUnseen | legacy/app.js:52-54 | with no result named like a dish, the suggestions are the first five results in order |
| Legacy.ShowSuggestions | legacy/app.js:37-79 | blank input, a failure or `null` hides the panel; a shown panel holds the first five unseen results of the search for the trimmed input, in order, 1 to 5 of them; it is shown whenever such a result exists |
| Legacy.BlankInputMakesNoLookup | legacy/app.js:38-44 | a blank input hides the panel for any two catalogs alike, so it makes no lookup |
| Legacy.FetchDish | legacy/app.js:81-90 | a meal exactly when the search answers a non-empty `meals`, and then the first of them |
| Legacy.FetchDishAgreesWithRelay | legacy/app.js:85 | when the first result matches the name up to case, or no result does, `fetchDish` picks what the relay's best-match rule picks |
| Legacy.FetchDishIgnoresLaterMatch | legacy/app.js:85 | when only a later result matches the name, `fetchDish` keeps the first result and differs from the relay's pick |
| Legacy.AddDishAsWritten | legacy/app.js:107-147 | the list is untouched; blank input: no-op; typed text matching up to case: only the input clears; not found: unchanged; found: its dish appended, input cleared, panel hidden, button enabled |
| Legacy.AddMeal | legacy/app.js:130-141 | corrected version (see Findings): appends the meal's dish unless its own name matches up to case, which only clears the input; keeps names distinct up to case |
| Legacy.AddDish | legacy/app.js:107-147 | corrected version (see Findings): as written for blank and typed-duplicate input; never breaks name distinctness; adds at most one dish |
| Legacy.AddDishAgreesUnlessRenamed | legacy/app.js:117-136 | both versions agree unless the found meal's name clashes with a dish while the typed text did not |
| Legacy.AsWrittenAddsDuplicate | legacy/app.js:117-136 | such a clash makes the as-written version store a second dish of the same name; the corrected one stores nothing |
| Legacy.ArrabiataAddedTwice | legacy/app.js:117-136 | with "Spicy Arrabiata Penne" added, typing "Arrabiata" adds it again as written, and only clears the input when corrected |
| Legacy.ArrabiataRun | legacy/app.js:14-34 | from page load, typing the full name, Add, typing "Arrabiata", Add: as written the collection ends with the same dish twice; corrected, once |
| Legacy.PickAsWritten | legacy/app.js:61-65 | a click on a shown suggestion is `addDish` on its name; elsewhere nothing happens |
| Legacy.PickAsWrittenAddsOther | legacy/app.js:61-65 | when the name's search lists a different meal first, that meal is added where the corrected click adds the clicked one; with different names the two collections differ |
| Legacy.Pick | legacy/app.js:61-65 | corrected version (see Findings): a click adds the clicked meal's dish, or only clears the input if its name is taken; the panel hides; names stay distinct |
| Legacy.RemoveDish | legacy/app.js:149-156 | the list is emptied; exactly the dishes not named `name` remain, in their original order (`Dishes.Without`); the button reflects emptiness; input and panel are untouched |
| Legacy.Generate | legacy/app.js:185-194 | nothing while the button is disabled; otherwise an ascending list of exactly the dishes' ingredients; only the list changes |
| Legacy.AddDishAsWrittenKeepsPageInv | legacy/app.js:107-147 | `addDish` as written keeps the button equal to emptiness and shown suggestions unnamed |
| Legacy.PickAsWrittenKeepsPageInv | legacy/app.js:61-65 | a suggestion click as written keeps the same |
| Legacy.AddMealKeepsPageInv | legacy/app.js:132-141 | corrected version (see Findings): adding keeps the page invariant |
| Legacy.RemoveKeepsPageInv | legacy/app.js:149-156 | removing keeps the page invariant |
| Legacy.AddDishKeepsPageInv | legacy/app.js:107-147 | corrected version (see Findings): `addDish` keeps the page invariant |
| Legacy.PickKeepsPageInv | legacy/app.js:61-65 | corrected version (see Findings): a suggestion click keeps the page invariant |
| Legacy.ShowKeepsPageInv | legacy/app.js:50-71 | showing suggestions keeps the page invariant |
| Legacy.Dispatch | legacy/app.js:13-34 | the listeners as written: typing sets only the input and re-arms `showSuggestions` 300 ms later; Enter and the add button both run `addDish` as written; only typing and ticks touch the timer; a tick before the deadline does nothing, a due one repaints only the panel; generating keeps the dishes |
| Legacy.DispatchKeepsInv | legacy/app.js:13-34 | every gesture, handled as written, keeps the button disabled exactly when nothing is added and a shown panel at 1 to 5 suggestions none named like an added dish |
| Legacy.ReachableKeepsInv | legacy/app.js:1-194 | every page reachable as written satisfies that invariant |
| Legacy.DispatchCorrectedKeepsInv | legacy/app.js:13-34 | corrected version (see Findings): every gesture also keeps dish names distinct up to case |
| Legacy.ReachableCorrectedKeepsInv | legacy/app.js:1-194 | corrected version (see Findings): every reachable page satisfies that stronger invariant |
| Legacy.StartSatisfiesInv | legacy/app.js:1-3 | the loaded page satisfies both invariants |
| Legacy.TypeThenWait | legacy/app.js:34 | typing and waiting 300 ms shows the suggestions for the text as it is when the timer runs |

## Left out

- Rendering is not modelled: the DOM and JSX building, `DishList.jsx`, `ShoppingList.jsx` and the checkbox `toggleCheck` state only display the state modelled here.
- `alert` calls, `console.error` logging, the `loading` flag and the button texts are not modelled; they affect no state modelled here.
- HTTP transport, Express routing, CORS, `dotenv` and `app.listen` are not modelled. A lookup is the `Catalog` parameter, and a route is a function from query to response.
- URL encoding of queries is not modelled. In particular, the React client interpolates `input` into `/api/search?q=` and `/api/dish/${input}` without encoding (a `/`, `?` or `#` in a name changes the route), and a `q` repeated in the query string would reach the server as an array.
- Real timers and the gap between a request and its answer are not modelled; timers are the explicit `Debounce` state machine driven by `Tick`. A search's answer is applied when its timer fires. The code has no guard against stale answers, so none is claimed.
- Overlapping add calls are not modelled. Only the add button is disabled during a lookup, so Enter or a suggestion click can start a second call while one is running; here each call runs to completion before the next input.
- `toLowerCase` covers ASCII letters only, and `sort` compares code points rather than UTF-16 code units. The two orders agree on the Basic Multilingual Plane.
- The page's HTML is not part of this model. The generate button is assumed disabled when the page loads, which `updateGenerateButton` would also set for an empty collection.
- Hover and click events are only rendered for existing suggestions. The model treats an index outside the suggestions as a no-op.

## Findings

| source | as written | input that shows it | evidently intended | confidence | as-written member | corrected member |
|---|---|---|---|---|---|---|
| legacy/app.js:117-136 | the duplicate check compares the typed text, but the dish is stored under the name of the meal the catalog returns | "Spicy Arrabiata Penne" already added; the user types "Arrabiata"; the catalog lists that same meal first; it is appended a second time | reject a meal whose own name is already present up to case, as `App.jsx` does | high, not executed | Legacy.ArrabiataRun (on Legacy.Dispatch) | Legacy.AddDish (in Legacy.DispatchCorrected) |
| legacy/app.js:61-65 | a suggestion click puts the meal's name in the input and `addDish` searches again, storing the first hit | a suggestion whose name's search lists a different meal first; that other meal is added instead of the one clicked | add the meal that was clicked, as `DishSearch.jsx` does | medium, not executed | Legacy.PickAsWrittenAddsOther (on Legacy.PickAsWritten) | Legacy.Pick (in Legacy.DispatchCorrected) |

=== FILE: app.dfy ===
/** The React `App` component: the dish collection and the shopping list it
    derives, with `addDish`, `removeDish`, `generateShoppingList` and the
    `canGenerate` flag it hands to the dish list. */
module App {
  import opened Wrappers
  import opened Text
  import opened Recipe
  import opened Dishes
  import opened Shopping

  /** The two `useState` hooks of `App`. */
  datatype AppState = AppState(dishes: seq<Dish>, shoppingList: seq<string>)

  /** Both arrays start empty. */
  const Initial := AppState([], [])

  /** `addDish(meal)`: rejected when a dish of the same name up to letter case
      exists, otherwise the dish is appended; the shopping list is left alone. */
  function AddDish(st: AppState, meal: Meal): (r: AppState)
    ensures r.shoppingList == st.shoppingList
    ensures r.dishes == st.dishes <==> HasNameIgnoringCase(st.dishes, meal.name)
    ensures !HasNameIgnoringCase(st.dishes, meal.name) ==>
              |r.dishes| == |st.dishes| + 1
              && r.dishes[..|st.dishes|] == st.dishes
              && r.dishes[|st.dishes|] == Dish(meal.name, Ingredients(meal), meal.thumb)
  {
    if HasNameIgnoringCase(st.dishes, meal.name) then st
    else
      var r := st.(dishes := st.dishes + [DishOf(meal)]);
      assert r.dishes[..|st.dishes|] == st.dishes;
      r
  }

  /** `removeDish(name)`: dishes of exactly that name go, the list is cleared. */
  function RemoveDish(st: AppState, name: string): (r: AppState)
    ensures r.shoppingList == []
    ensures forall d :: d in r.dishes <==> d in st.dishes && d.name != name
    ensures (forall i :: 0 <= i < |st.dishes| ==> st.dishes[i].name != name) ==>
              r.dishes == st.dishes
    ensures r.dishes == Without(st.dishes, name)
  {
    AppState(Without(st.dishes, name), [])
  }

  /** `generateShoppingList()`: only the list changes. */
  function GenerateShoppingList(st: AppState): (r: AppState)
    ensures r.dishes == st.dishes
    ensures Ascending(r.shoppingList)
    ensures forall x :: x in r.shoppingList <==> InSomeDish(st.dishes, x)
  {
    st.(shoppingList := ShoppingList(st.dishes))
  }

  /** `canGenerate={dishes.length > 0}`. */
  predicate CanGenerate(st: AppState)
  {
    |st.dishes| > 0
  }

  /** Adding never produces two dishes whose names differ only in case. */
  lemma AddDishKeepsDistinct(st: AppState, meal: Meal)
    requires DistinctNames(st.dishes)
    ensures DistinctNames(AddDish(st, meal).dishes)
  {
    if !HasNameIgnoringCase(st.dishes, meal.name) {
      AppendKeepsDistinct(st.dishes, DishOf(meal));
    }
  }

  /** Removing keeps the collection free of case-insensitive duplicates. */
  lemma RemoveDishKeepsDistinct(st: AppState, name: string)
    requires DistinctNames(st.dishes)
    ensures DistinctNames(RemoveDish(st, name).dishes)
  {
    WithoutKeepsDistinct(st.dishes, name);
  }

  /** A second dish whose name differs from a present one only in case is
      rejected and the collection keeps its size. */
  lemma AddCaseVariantRejected(st: AppState, m1: Meal, m2: Meal)
    requires !HasNameIgnoringCase(st.dishes, m1.name)
    requires SameIgnoringCase(m1.name, m2.name)
    ensures AddDish(AddDish(st, m1), m2) == AddDish(st, m1)
    ensures |AddDish(AddDish(st, m1), m2).dishes| == |st.dishes| + 1
  {
    var s1 := AddDish(st, m1);
    assert s1.dishes[|st.dishes|].name == m1.name;
    assert HasNameIgnoringCase(s1.dishes, m2.name);
  }

  /** Adding the same record twice is the same as adding it once. */
  lemma AddDishIdempotent(st: AppState, meal: Meal)
    ensures AddDish(AddDish(st, meal), meal) == AddDish(st, meal)
  {
    var s1 := AddDish(st, meal);
    if !HasNameIgnoringCase(st.dishes, meal.name) {
      assert s1.dishes[|st.dishes|].name == meal.name;
      assert HasNameIgnoringCase(s1.dishes, meal.name);
    }
  }

  /** Removing a dish just added restores the collection: the filter keeps
      every earlier dish, in order. */
  lemma AddThenRemoveRestores(st: AppState, meal: Meal)
    requires !HasNameIgnoringCase(st.dishes, meal.name)
    ensures RemoveDish(AddDish(st, meal), meal.name).dishes == st.dishes
    ensures RemoveDish(AddDish(st, meal), meal.name).shoppingList == []
  {
    forall i | 0 <= i < |st.dishes| ensures st.dishes[i].name != meal.name {
      if st.dishes[i].name == meal.name {
        assert SameIgnoringCase(st.dishes[i].name, meal.name);
      }
    }
    WithoutDistributes(st.dishes, [DishOf(meal)], meal.name);
    assert Without([DishOf(meal)], meal.name) == [];
  }

  /** Removal clears the list even when no dish has that name. */
  lemma RemoveAbsentClearsOnlyList(st: AppState, name: string)
    requires forall i :: 0 <= i < |st.dishes| ==> st.dishes[i].name != name
    ensures RemoveDish(st, name) == AppState(st.dishes, [])
  {
  }

  /** Generating twice gives the same list as generating once, and with
      nothing to generate from the list is empty. */
  lemma GenerateIdempotent(st: AppState)
    ensures GenerateShoppingList(GenerateShoppingList(st)) == GenerateShoppingList(st)
    ensures !CanGenerate(st) ==> GenerateShoppingList(st).shoppingList == []
  {
  }

  /** Add "Pasta", remove "Pasta": no dish and no list, without regenerating. */
  lemma AddRemoveScenario(pasta: Meal)
    requires pasta.name == "Pasta"
    ensures RemoveDish(AddDish(Initial, pasta), "Pasta") == Initial
  {
    AddThenRemoveRestores(Initial, pasta);
  }

  /** A "Pasta" dish of Pasta and Tomato and a "Salad" dish of Tomato and
      Lettuce generate Lettuce, Pasta, Tomato. */
  lemma PastaSaladScenario()
    ensures ShoppingList([Dish("Pasta", ["Pasta", "Tomato"], None),
                          Dish("Salad", ["Tomato", "Lettuce"], None)])
            == ["Lettuce", "Pasta", "Tomato"]
  {
    var ds := [Dish("Pasta", ["Pasta", "Tomato"], None), Dish("Salad", ["Tomato", "Lettuce"], None)];
    var expected := ["Lettuce", "Pasta", "Tomato"];
    assert Less("Lettuce", "Pasta") && Less("Pasta", "Tomato") && Less("Lettuce", "Tomato");
    assert Ascending(expected);
    forall x ensures x in ShoppingList(ds) <==> x in expected {
      assert InSomeDish(ds, x) <==> x in ds[0].ingredients || x in ds[1].ingredients;
    }
    AscendingUnique(ShoppingList(ds), expected);
  }
}

=== FILE: client.dfy ===
/** The React client as a whole: `App`'s state, the `DishSearch` state and
    the search effect's one pending timer. Every gesture carries the instant
    it happens at; the relay's catalog is a parameter. */
module Client {
  import opened Wrappers
  import opened Recipe
  import opened Dishes
  import App
  import Selector
  import opened Debounce

  datatype Client = Client(app: App.AppState, search: Selector.Search, timer: Debouncer<string>)

  /** Mounting runs the search effect once, for the empty input. */
  function Mount(now: int): (c: Client)
    ensures Inv(c)
    ensures c.app == App.Initial && c.search == Selector.Initial
    ensures c.timer.pending == Some(Pending("", now + SearchDelay))
  {
    Client(App.Initial, Selector.Initial, Step(Trace(Fresh(SearchDelay), []), CallAt("", now)).final)
  }

  /** What the user, or the clock, does. */
  datatype Gesture =
    | Type(text: string)
    | Press(key: Selector.Key)
    | Hover(index: int)
    | ClickSuggestion(index: int)
    | AddButton
    | RemoveButton(name: string)
    | GenerateButton
    | Tick

  datatype Input = Input(gesture: Gesture, at: int)

  /** What holds between gestures: the selector's invariant, no two dishes
      named alike, and the pending search is always for the current text. */
  predicate Inv(c: Client)
  {
    && Selector.Valid(c.search)
    && DistinctNames(c.app.dishes)
    && c.timer.wait == SearchDelay
    && (c.timer.pending.Some? ==> c.timer.pending.value.args == c.search.input)
  }

  /** A `DishSearch` handler took effect: a committed meal goes to
      `addDish`, and a changed `input` re-runs the effect. */
  function Settle(c: Client, o: Selector.Outcome, now: int): (r: Client)
    ensures r.search == o.next
    ensures o.added.None? ==> r.app == c.app
    ensures o.added.Some? ==> r.app == App.AddDish(c.app, o.added.value)
    ensures o.next.input == c.search.input ==> r.timer == c.timer
    ensures o.next.input != c.search.input ==>
              r.timer.pending == Some(Pending(o.next.input, now + c.timer.wait))
  {
    var app := if o.added.Some? then App.AddDish(c.app, o.added.value) else c.app;
    var timer := if o.next.input != c.search.input
                 then Step(Trace(c.timer, []), CallAt(o.next.input, now)).final
                 else c.timer;
    Client(app, o.next, timer)
  }

  /** One input. */
  function Dispatch(c: Client, i: Input, catalog: Catalog): (r: Client)
    ensures i.gesture.Type? || i.gesture.Hover? || i.gesture.Tick? ==> r.app == c.app
    ensures i.gesture.Type? ==> r.search == c.search.(input := i.gesture.text)
    ensures i.gesture.Type? && i.gesture.text != c.search.input ==>
              r.timer.pending == Some(Pending(i.gesture.text, i.at + c.timer.wait))
    ensures i.gesture.Hover? || i.gesture.RemoveButton? || i.gesture.GenerateButton? ==> r.timer == c.timer
    ensures i.gesture.RemoveButton? || i.gesture.GenerateButton? ==> r.search == c.search
    ensures i.gesture.RemoveButton? ==> r.app == App.RemoveDish(c.app, i.gesture.name)
    ensures i.gesture.GenerateButton? ==> r.app.dishes == c.app.dishes
    ensures i.gesture.Tick? && !Due(c.timer, i.at) ==> r == c
    ensures i.gesture.Tick? && Due(c.timer, i.at) ==>
              r.search == Selector.OnSearchResult(c.search, c.timer.pending.value.args, catalog)
              && r.timer.pending.None?
  {
    match i.gesture
    case Type(text) => Settle(c, Selector.Outcome(c.search.(input := text), None), i.at)
    case Press(key) => Settle(c, Selector.KeyDown(c.search, key, catalog), i.at)
    case Hover(k) => c.(search := Selector.Hover(c.search, k))
    case ClickSuggestion(k) => Settle(c, Selector.Click(c.search, k, catalog), i.at)
    case AddButton => Settle(c, Selector.HandleAdd(c.search, None, catalog), i.at)
    case RemoveButton(name) => c.(app := App.RemoveDish(c.app, name))
    case GenerateButton =>
      if App.CanGenerate(c.app) then c.(app := App.GenerateShoppingList(c.app)) else c
    case Tick =>
      var t := Step(Trace(c.timer, []), TickAt(i.at));
      if |t.invoked| > 0 then
        c.(search := Selector.OnSearchResult(c.search, t.invoked[0], catalog), timer := t.final)
      else c
  }

  /** Every input keeps the invariant. */
  lemma DispatchKeepsInv(c: Client, i: Input, catalog: Catalog)
    requires Inv(c)
    ensures Inv(Dispatch(c, i, catalog))
  {
    match i.gesture
    case Press(key) =>
      var o := Selector.KeyDown(c.search, key, catalog);
      if o.added.Some? { App.AddDishKeepsDistinct(c.app, o.added.value); }
    case ClickSuggestion(k) =>
      var o := Selector.Click(c.search, k, catalog);
      if o.added.Some? { App.AddDishKeepsDistinct(c.app, o.added.value); }
    case AddButton =>
      var o := Selector.HandleAdd(c.search, None, catalog);
      if o.added.Some? { App.AddDishKeepsDistinct(c.app, o.added.value); }
    case RemoveButton(name) => App.RemoveDishKeepsDistinct(c.app, name);
    case _ =>
  }

  /** A run of inputs. */
  function DispatchAll(c: Client, ins: seq<Input>, catalog: Catalog): Client
    decreases |ins|
  {
    if |ins| == 0 then c else DispatchAll(Dispatch(c, ins[0], catalog), ins[1..], catalog)
  }

  /** Every state reachable from mounting satisfies the invariant. */
  lemma {:induction false} ReachableKeepsInv(c: Client, ins: seq<Input>, catalog: Catalog)
    requires Inv(c)
    ensures Inv(DispatchAll(c, ins, catalog))
    decreases |ins|
  {
    if |ins| > 0 {
      DispatchKeepsInv(c, ins[0], catalog);
      ReachableKeepsInv(Dispatch(c, ins[0], catalog), ins[1..], catalog);
    }
  }

  /** Typing a new text and waiting out the delay searches for that text. */
  lemma TypeThenWait(c: Client, text: string, at: int, now: int, catalog: Catalog)
    requires Inv(c) && text != c.search.input && now >= at + SearchDelay
    ensures Dispatch(Dispatch(c, Input(Type(text), at), catalog), Input(Tick, now), catalog).search
            == Selector.OnSearchResult(c.search.(input := text), text, catalog)
  {
  }

  /** A tick before the delay is over does nothing. */
  lemma EarlyTickChangesNothing(c: Client, text: string, at: int, now: int, catalog: Catalog)
    requires Inv(c) && text != c.search.input && now < at + SearchDelay
    ensures var c1 := Dispatch(c, Input(Type(text), at), catalog);
            Dispatch(c1, Input(Tick, now), catalog) == c1
  {
  }

  /** Clicking a suggestion whose name matches an added dish up to case is
      refused by `addDish`, yet the search box is still cleared. */
  lemma DuplicateClickStillClears(c: Client, k: int, at: int, catalog: Catalog)
    requires Inv(c) && 0 <= k < |c.search.suggestions|
    requires HasNameIgnoringCase(c.app.dishes, c.search.suggestions[k].name)
    ensures var r := Dispatch(c, Input(ClickSuggestion(k), at), catalog);
            r.app == c.app && r.search == Selector.Initial
  {
  }

  /** Clicking a new suggestion adds exactly that dish. */
  lemma ClickAddsSuggestion(c: Client, k: int, at: int, catalog: Catalog)
    requires Inv(c) && 0 <= k < |c.search.suggestions|
    requires !HasNameIgnoringCase(c.app.dishes, c.search.suggestions[k].name)
    ensures var r := Dispatch(c, Input(ClickSuggestion(k), at), catalog);
            r.app.dishes == c.app.dishes + [DishOf(c.search.suggestions[k])]
  {
    var meal := c.search.suggestions[k];
    var o := Selector.Click(c.search, k, catalog);
    assert o.added == Some(meal);
    var added := App.AddDish(c.app, meal).dishes;
    assert added[..|c.app.dishes|] == c.app.dishes && added[|c.app.dishes|] == DishOf(meal);
    assert added == c.app.dishes + [DishOf(meal)];
    assert Settle(c, o, at).app.dishes == added;
  }

  /** The generate button is disabled while the collection is empty. */
  lemma GenerateNeedsDishes(c: Client, at: int, catalog: Catalog)
    requires c.app.dishes == []
    ensures Dispatch(c, Input(GenerateButton, at), catalog) == c
  {
  }
}

=== FILE: debounce.dfy ===
/** `debounce(func, wait)`: every call clears the pending timeout and starts
    a new one; when a timeout elapses, `func` runs with that call's arguments.
    Time is an explicit parameter: events carry the instant they happen at. */
module Debounce {
  import opened Wrappers

  /** Both clients wait 300 ms after the last keystroke before searching. */
  const SearchDelay: nat := 300

  /** A scheduled timeout: the arguments it will pass and when it elapses. */
  datatype Pending<A> = Pending(args: A, due: int)

  /** The closure's state: its `wait` and the one `timeout` it may hold. */
  datatype Debouncer<A> = Debouncer(wait: nat, pending: Option<Pending<A>>)

  /** Something that happens to a debounced function. */
  datatype TimerEvent<A> = CallAt(args: A, at: int) | TickAt(at: int)

  /** A debouncer after a run of events, and the arguments `func` was invoked with. */
  datatype Trace<A> = Trace(final: Debouncer<A>, invoked: seq<A>)

  /** A fresh debounced function. */
  function Fresh<A>(wait: nat): Debouncer<A>
  {
    Debouncer(wait, None)
  }

  /** `executedFunction(...args)` at time `now`. */
  function Call<A>(d: Debouncer<A>, args: A, now: int): Debouncer<A>
  {
    d.(pending := Some(Pending(args, now + d.wait)))
  }

  /** The pending timeout, if any, has elapsed by `now`. */
  predicate Due<A>(d: Debouncer<A>, now: int)
  {
    d.pending.Some? && d.pending.value.due <= now
  }

  /** One event applied to a trace. */
  function Step<A>(t: Trace<A>, e: TimerEvent<A>): Trace<A>
  {
    match e
    case CallAt(args, at) => Trace(Call(t.final, args, at), t.invoked)
    case TickAt(at) =>
      if Due(t.final, at) then
        Trace(t.final.(pending := None), t.invoked + [t.final.pending.value.args])
      else t
  }

  /** The events applied in order. */
  function Run<A>(d: Debouncer<A>, evs: seq<TimerEvent<A>>): Trace<A>
  {
    if |evs| == 0 then Trace(d, [])
    else Step(Run(d, evs[..|evs| - 1]), evs[|evs| - 1])
  }

  /** Number of calls among the events. */
  function Calls<A>(evs: seq<TimerEvent<A>>): nat
  {
    if |evs| == 0 then 0
    else Calls(evs[..|evs| - 1]) + (if evs[|evs| - 1].CallAt? then 1 else 0)
  }

  /** The most recent call among the events. */
  function LastCall<A>(evs: seq<TimerEvent<A>>): (r: Option<TimerEvent<A>>)
    ensures r.Some? ==> r.value.CallAt? && r.value in evs
    ensures r.Some? ==> exists k :: 0 <= k < |evs| && evs[k] == r.value && NoCallAfter(evs, k)
    ensures r.None? <==> Calls(evs) == 0
    ensures r.None? ==> forall j :: 0 <= j < |evs| ==> !evs[j].CallAt?
  {
    if |evs| == 0 then None
    else if evs[|evs| - 1].CallAt? then
      assert NoCallAfter(evs, |evs| - 1);
      Some(evs[|evs| - 1])
    else
      var init := evs[..|evs| - 1];
      var r := LastCall(init);
      assert r.Some? ==> exists k :: 0 <= k < |evs| && evs[k] == r.value && NoCallAfter(evs, k) by {
        if r.Some? {
          var k :| 0 <= k < |init| && init[k] == r.value && NoCallAfter(init, k);
          assert evs[k] == r.value && NoCallAfter(evs, k);
        }
      }
      r
  }

  /** No event after position `k` is a call. */
  ghost predicate NoCallAfter<A>(evs: seq<TimerEvent<A>>, k: int)
  {
    forall j :: 0 <= j < |evs| && k < j ==> !evs[j].CallAt?
  }

  /** At most one timeout is ever pending: the one the most recent call
      scheduled, `wait` after it, with its arguments (or the one pending
      before the events, if none of them is a call). */
  lemma {:induction false} PendingIsLatest<A>(d: Debouncer<A>, evs: seq<TimerEvent<A>>)
    ensures Run(d, evs).final.wait == d.wait
    ensures Run(d, evs).final.pending.Some? && LastCall(evs).Some? ==>
              Run(d, evs).final.pending.value
              == Pending(LastCall(evs).value.args, LastCall(evs).value.at + d.wait)
    ensures Run(d, evs).final.pending.Some? && LastCall(evs).None? ==>
              Run(d, evs).final.pending == d.pending
  {
    if |evs| > 0 {
      PendingIsLatest(d, evs[..|evs| - 1]);
    }
  }

  /** Every invocation consumes one timeout and every timeout comes from one
      call, so `func` runs no more often than it is called (plus one for a
      timeout pending at the start). */
  lemma {:induction false} InvocationsBounded<A>(d: Debouncer<A>, evs: seq<TimerEvent<A>>)
    ensures |Run(d, evs).invoked| + (if Run(d, evs).final.pending.Some? then 1 else 0)
            <= Calls(evs) + (if d.pending.Some? then 1 else 0)
  {
    if |evs| > 0 {
      InvocationsBounded(d, evs[..|evs| - 1]);
    }
  }

  /** No tick of the run finds the pending timeout elapsed. */
  ghost predicate NothingElapses<A>(d: Debouncer<A>, evs: seq<TimerEvent<A>>)
  {
    if |evs| == 0 then true
    else
      var init := evs[..|evs| - 1];
      NothingElapses(d, init)
      && (evs[|evs| - 1].TickAt? ==> !Due(Run(d, init).final, evs[|evs| - 1].at))
  }

  /** A burst in which no timeout elapses invokes nothing, and leaves a
      timeout pending once it contains a call. */
  lemma {:induction false} BurstInvokesNothing<A>(d: Debouncer<A>, evs: seq<TimerEvent<A>>)
    requires NothingElapses(d, evs)
    ensures Run(d, evs).invoked == []
    ensures Calls(evs) > 0 ==> Run(d, evs).final.pending.Some?
  {
    if |evs| > 0 {
      BurstInvokesNothing(d, evs[..|evs| - 1]);
    }
  }

  /** After such a burst, the first tick at least `wait` after the last call
      invokes `func` exactly once, with the arguments of that last call. */
  lemma BurstThenQuiet<A>(d: Debouncer<A>, evs: seq<TimerEvent<A>>, now: int)
    requires NothingElapses(d, evs) && LastCall(evs).Some?
    requires now >= LastCall(evs).value.at + d.wait
    ensures Run(d, evs + [TickAt(now)]).invoked == [LastCall(evs).value.args]
    ensures Run(d, evs + [TickAt(now)]).final.pending.None?
  {
    BurstInvokesNothing(d, evs);
    PendingIsLatest(d, evs);
    assert (evs + [TickAt(now)])[..|evs|] == evs;
  }

  /** Three keystrokes, each within 100 ms of the one before, with the clock
      ticking in between: one search, for the last text. */
  lemma ThreeQuickChanges(a: string, b: string, c: string, t0: int, t1: int, t2: int, now: int)
    requires t0 <= t1 <= t0 + 100 && t1 <= t2 <= t1 + 100
    requires now >= t2 + SearchDelay
    ensures Run(Fresh(SearchDelay),
              [CallAt(a, t0), TickAt(t1), CallAt(b, t1), TickAt(t2), CallAt(c, t2), TickAt(now)]).invoked
            == [c]
  {
    var d: Debouncer<string> := Fresh(SearchDelay);
    var e1 := [CallAt(a, t0)];
    var e2 := e1 + [TickAt(t1)];
    var e3 := e2 + [CallAt(b, t1)];
    var e4 := e3 + [TickAt(t2)];
    var e5 := e4 + [CallAt(c, t2)];
    assert e1[..0] == [] && e2[..1] == e1 && e3[..2] == e2 && e4[..3] == e3 && e5[..4] == e4;
    assert Run(d, e1).final.pending == Some(Pending(a, t0 + SearchDelay));
    assert NothingElapses(d, e1);
    assert NothingElapses(d, e2);
    assert NothingElapses(d, e3);
    assert Run(d, e3).final.pending == Some(Pending(b, t1 + SearchDelay));
    assert NothingElapses(d, e4);
    assert NothingElapses(d, e5);
    assert LastCall(e5) == Some(CallAt(c, t2));
    assert e5 == [CallAt(a, t0), TickAt(t1), CallAt(b, t1), TickAt(t2), CallAt(c, t2)];
    BurstThenQuiet(d, e5, now);
    assert e5 + [TickAt(now)] ==
           [CallAt(a, t0), TickAt(t1), CallAt(b, t1), TickAt(t2), CallAt(c, t2), TickAt(now)];
  }
}

=== FILE: dishes.dfy ===
/** The dish collection both clients keep: an ordered array of dishes whose
    names are unique up to letter case, appended to and filtered. */
module Dishes {
  import opened Wrappers
  import opened Text
  import opened Seqs
  import opened Recipe

  /** `{ name, ingredients, image }` as pushed by `addDish`. */
  datatype Dish = Dish(name: string, ingredients: seq<string>, image: Option<string>)

  /** The dish `addDish` builds from a catalog record. */
  function DishOf(m: Meal): Dish
  {
    Dish(m.name, Ingredients(m), m.thumb)
  }

  /** `dishes.some(d => d.name.toLowerCase() === n.toLowerCase())`. */
  predicate HasNameIgnoringCase(dishes: seq<Dish>, n: string)
  {
    exists i :: 0 <= i < |dishes| && SameIgnoringCase(dishes[i].name, n)
  }

  /** The collection invariant: no two dishes share a name up to letter case. */
  predicate DistinctNames(dishes: seq<Dish>)
  {
    forall i, j :: 0 <= i < j < |dishes| ==> !SameIgnoringCase(dishes[i].name, dishes[j].name)
  }

  /** Appending a dish whose name is new keeps the invariant. */
  lemma AppendKeepsDistinct(dishes: seq<Dish>, d: Dish)
    requires DistinctNames(dishes)
    requires !HasNameIgnoringCase(dishes, d.name)
    ensures DistinctNames(dishes + [d])
  {
    var r := dishes + [d];
    forall i, j | 0 <= i < j < |r|
      ensures !SameIgnoringCase(r[i].name, r[j].name)
    {
      if j == |dishes| {
        assert r[i] == dishes[i];
      }
    }
  }

  /** A dish of that exact name is kept by the filter of `removeDish`. */
  predicate NotNamed(name: string, d: Dish)
  {
    d.name != name
  }

  /** `dishes.filter(d => d.name !== name)`. */
  function Without(dishes: seq<Dish>, name: string): (r: seq<Dish>)
    ensures |r| <= |dishes|
    ensures forall d :: d in r <==> d in dishes && d.name != name
    ensures (forall i :: 0 <= i < |dishes| ==> dishes[i].name != name) ==> r == dishes
  {
    Filter(dishes, d => NotNamed(name, d))
  }

  /** The filter works piecewise, so the kept dishes stay in their order. */
  lemma WithoutDistributes(a: seq<Dish>, b: seq<Dish>, name: string)
    ensures Without(a + b, name) == Without(a, name) + Without(b, name)
  {
    FilterDistributes(a, b, d => NotNamed(name, d));
  }

  /** Read from the back, the filter keeps a dish exactly when its name is
      not `name`, after everything kept before it. */
  lemma WithoutAppend(a: seq<Dish>, d: Dish, name: string)
    ensures Without([], name) == []
    ensures Without(a + [d], name) == Without(a, name) + (if d.name != name then [d] else [])
  {
    WithoutDistributes(a, [d], name);
    assert [d][1..] == [];
  }

  /** A dish named unlike every dish after it keeps the names distinct. */
  lemma ConsKeepsDistinct(head: Dish, rest: seq<Dish>)
    requires DistinctNames(rest)
    requires forall k :: 0 <= k < |rest| ==> !SameIgnoringCase(head.name, rest[k].name)
    ensures DistinctNames([head] + rest)
  {
    var r := [head] + rest;
    forall i, j | 0 <= i < j < |r| ensures !SameIgnoringCase(r[i].name, r[j].name) {
      assert r[j] == rest[j - 1];
      if i > 0 {
        assert r[i] == rest[i - 1];
      }
    }
  }

  /** Removing dishes keeps the invariant. */
  lemma {:induction false} WithoutKeepsDistinct(dishes: seq<Dish>, name: string)
    requires DistinctNames(dishes)
    ensures DistinctNames(Without(dishes, name))
    decreases |dishes|
  {
    if |dishes| > 0 {
      var head, tail := dishes[0], dishes[1..];
      var rest := Without(tail, name);
      assert DistinctNames(rest) by {
        forall i, j | 0 <= i < j < |tail| ensures !SameIgnoringCase(tail[i].name, tail[j].name) {
          assert tail[i] == dishes[i + 1] && tail[j] == dishes[j + 1];
        }
        WithoutKeepsDistinct(tail, name);
      }
      assert Without(dishes, name) == (if head.name != name then [head] else []) + rest by {
        assert dishes == [head] + tail;
        WithoutDistributes([head], tail, name);
        assert [head][1..] == [];
      }
      if head.name != name {
        forall k | 0 <= k < |rest|
          ensures !SameIgnoringCase(head.name, rest[k].name)
        {
          var j :| 0 <= j < |tail| && tail[j] == rest[k];
          assert dishes[j + 1] == rest[k];
        }
        ConsKeepsDistinct(head, rest);
      } else {
        assert [] + rest == rest;
      }
    }
  }
}

=== FILE: legacy.dfy ===
/** The framework-free client: module-level `dishes` and `shoppingList`, the
    text of `#dish-input`, the `#suggestions` panel and the disabled flag of
    `#generate-btn`, talking to the catalog directly. */
module Legacy {
  import opened Wrappers
  import opened Text
  import opened Seqs
  import opened Recipe
  import opened Dishes
  import opened Shopping
  import opened Debounce
  import Server

  /** The `#suggestions` element: hidden, or showing clickable meals. */
  datatype Panel = Hidden | Shown(items: seq<Meal>)

  /** Everything the page's handlers read and write. */
  datatype Page = Page(
    dishes: seq<Dish>,
    shoppingList: seq<string>,
    input: string,
    panel: Panel,
    generateDisabled: bool)

  /** The page as loaded: nothing added, generate button disabled. */
  const Loaded := Page([], [], "", Hidden, true)

  /** `dishes.some(d => d.name === n)`: exact, case-sensitive comparison. */
  predicate NamedExactly(dishes: seq<Dish>, n: string)
  {
    exists i :: 0 <= i < |dishes| && dishes[i].name == n
  }

  /** `updateGenerateButton()`. */
  function UpdateGenerateButton(p: Page): (r: Page)
    ensures r.generateDisabled <==> |p.dishes| == 0
    ensures r.(generateDisabled := p.generateDisabled) == p
  {
    p.(generateDisabled := |p.dishes| == 0)
  }

  /** The search results no added dish is named after exactly, in the
      catalog's order. */
  function Unseen(meals: seq<Meal>, dishes: seq<Dish>): (r: seq<Meal>)
    ensures |r| <= |meals|
    ensures forall m :: m in r <==> m in meals && !NamedExactly(dishes, m.name)
  {
    Filter(meals, (m: Meal) => !NamedExactly(dishes, m.name))
  }

  /** The filter works result by result, so it keeps the catalog's order. */
  lemma UnseenDistributes(a: seq<Meal>, b: seq<Meal>, dishes: seq<Dish>)
    ensures Unseen(a + b, dishes) == Unseen(a, dishes) + Unseen(b, dishes)
  {
    FilterDistributes(a, b, (m: Meal) => !NamedExactly(dishes, m.name));
  }

  /** The search results not yet in the collection: the first five of them,
      in the catalog's order. */
  function Available(meals: seq<Meal>, dishes: seq<Dish>): (r: seq<Meal>)
    ensures var u := Unseen(meals, dishes);
            && |r| == (if |u| < MaxSuggestions then |u| else MaxSuggestions)
            && forall i :: 0 <= i < |r| ==> r[i] == u[i]
    ensures forall m :: m in r ==> m in meals && !NamedExactly(dishes, m.name)
    ensures |r| == 0 <==> forall m :: m in meals ==> NamedExactly(dishes, m.name)
  {
    var unseen := Unseen(meals, dishes);
    var r := Take(unseen, MaxSuggestions);
    assert forall m :: m in r ==> m in unseen;
    assert |unseen| > 0 ==> unseen[0] in r;
    r
  }

  /** The catalog answered the search for `q` with a `meals` array. */
  predicate Answered(catalog: Catalog, q: string)
  {
    catalog(q).Fetched? && catalog(q).data.Some?
  }

  /** Suggestion `k` is on screen and can be clicked. */
  predicate Clickable(p: Page, k: int)
  {
    p.panel.Shown? && 0 <= k < |p.panel.items|
  }

  /** When no result is an added dish, the suggestions are the first five
      results in the catalog's order. */
  lemma AvailableOfUnseen(meals: seq<Meal>, dishes: seq<Dish>)
    requires forall i :: 0 <= i < |meals| ==> !NamedExactly(dishes, meals[i].name)
    ensures Available(meals, dishes) == Take(meals, MaxSuggestions)
  {
  }

  /** `showSuggestions()`: what the panel shows once the search for the
      trimmed input has been answered. */
  function ShowSuggestions(p: Page, catalog: Catalog): (r: Panel)
    ensures Blank(p.input) ==> r == Hidden
    ensures !Answered(catalog, Trim(p.input)) ==> r == Hidden
    ensures r.Shown? ==>
              && !Blank(p.input)
              && 1 <= |r.items| <= MaxSuggestions
              && Answered(catalog, Trim(p.input))
              && forall m :: m in r.items ==>
                   m in catalog(Trim(p.input)).data.value && !NamedExactly(p.dishes, m.name)
    ensures r.Shown? ==>
              Answered(catalog, Trim(p.input))
              && var u := Unseen(catalog(Trim(p.input)).data.value, p.dishes);
                 && |r.items| == (if |u| < MaxSuggestions then |u| else MaxSuggestions)
                 && forall i :: 0 <= i < |r.items| ==> r.items[i] == u[i]
    ensures (!Blank(p.input) && Answered(catalog, Trim(p.input))
             && exists m :: m in catalog(Trim(p.input)).data.value && !NamedExactly(p.dishes, m.name))
            ==> r.Shown?
  {
    var q := Trim(p.input);
    if |q| == 0 then Hidden
    else
      match catalog(q)
      case Fetched(Some(meals)) =>
        var items := Available(meals, p.dishes);
        if |items| > 0 then Shown(items) else Hidden
      case _ => Hidden
  }

  /** A blank input never reaches the catalog: any two catalogs give the same panel. */
  lemma BlankInputMakesNoLookup(p: Page, c1: Catalog, c2: Catalog)
    requires Blank(p.input)
    ensures ShowSuggestions(p, c1) == ShowSuggestions(p, c2) == Hidden
  {
  }

  /** `fetchDish(name)`: the first meal the catalog lists, or `null` for a
      failed request, `{meals: null}` or an empty list. */
  function FetchDish(name: string, catalog: Catalog): (r: Option<Meal>)
    ensures r.Some? <==> catalog(name).Fetched? && catalog(name).data.Some?
                         && |catalog(name).data.value| > 0
    ensures r.Some? ==> r.value == catalog(name).data.value[0]
  {
    match catalog(name)
    case Fetched(Some(meals)) => if |meals| > 0 then Some(meals[0]) else None
    case _ => None
  }

  /** Against the relay's rule: `fetchDish` picks the same meal when the first
      result matches the name up to case, or when no result does. */
  lemma FetchDishAgreesWithRelay(name: string, catalog: Catalog)
    requires Answered(catalog, name) && |catalog(name).data.value| > 0
    requires var meals := catalog(name).data.value;
             || SameIgnoringCase(meals[0].name, name)
             || forall i :: 0 <= i < |meals| ==> !SameIgnoringCase(meals[i].name, name)
    ensures FetchDish(name, catalog) == Server.BestMatch(catalog(name).data.value, name)
  {
  }

  /** When only a later result matches, `fetchDish` keeps the first result
      where the relay would pick the match. */
  lemma FetchDishIgnoresLaterMatch(name: string, catalog: Catalog, k: int)
    requires Answered(catalog, name)
    requires var meals := catalog(name).data.value;
             && 0 < k < |meals| && SameIgnoringCase(meals[k].name, name)
             && !SameIgnoringCase(meals[0].name, name)
    ensures FetchDish(name, catalog) == Some(catalog(name).data.value[0])
    ensures FetchDish(name, catalog) != Server.BestMatch(catalog(name).data.value, name)
  {
  }

  /** `addDish()` as written: the duplicate check compares the TYPED text,
      but the dish pushed carries the name of the meal the catalog returned. */
  function AddDishAsWritten(p: Page, catalog: Catalog): (r: Page)
    ensures r.shoppingList == p.shoppingList
    ensures Blank(p.input) ==> r == p
    ensures !Blank(p.input) && HasNameIgnoringCase(p.dishes, Trim(p.input)) ==> r == p.(input := "")
    ensures !Blank(p.input) && !HasNameIgnoringCase(p.dishes, Trim(p.input)) ==>
              match FetchDish(Trim(p.input), catalog)
              case None => r == p
              case Some(m) =>
                && r.dishes == p.dishes + [DishOf(m)]
                && r.input == "" && r.panel == Hidden && !r.generateDisabled
  {
    var q := Trim(p.input);
    if |q| == 0 then p
    else if HasNameIgnoringCase(p.dishes, q) then p.(input := "")
    else
      match FetchDish(q, catalog)
      case None => p
      case Some(meal) =>
        UpdateGenerateButton(p.(dishes := p.dishes + [DishOf(meal)], input := "", panel := Hidden))
  }

  /** Adding a fetched meal, with the duplicate check applied to the name the
      dish will actually carry. */
  function AddMeal(p: Page, meal: Meal): (r: Page)
    ensures r.shoppingList == p.shoppingList
    ensures HasNameIgnoringCase(p.dishes, meal.name) ==> r == p.(input := "")
    ensures !HasNameIgnoringCase(p.dishes, meal.name) ==>
              && r.dishes == p.dishes + [DishOf(meal)]
              && r.input == "" && r.panel == Hidden && !r.generateDisabled
    ensures DistinctNames(p.dishes) ==> DistinctNames(r.dishes)
  {
    if HasNameIgnoringCase(p.dishes, meal.name) then p.(input := "")
    else
      AppendKeepsDistinctIf(p.dishes, DishOf(meal));
      UpdateGenerateButton(p.(dishes := p.dishes + [DishOf(meal)], input := "", panel := Hidden))
  }

  lemma AppendKeepsDistinctIf(dishes: seq<Dish>, d: Dish)
    requires !HasNameIgnoringCase(dishes, d.name)
    ensures DistinctNames(dishes) ==> DistinctNames(dishes + [d])
  {
    if DistinctNames(dishes) {
      AppendKeepsDistinct(dishes, d);
    }
  }

  /** `addDish()` with the duplicate check repeated on the fetched meal's name. */
  function AddDish(p: Page, catalog: Catalog): (r: Page)
    ensures r.shoppingList == p.shoppingList
    ensures Blank(p.input) ==> r == p
    ensures !Blank(p.input) && HasNameIgnoringCase(p.dishes, Trim(p.input)) ==> r == p.(input := "")
    ensures DistinctNames(p.dishes) ==> DistinctNames(r.dishes)
    ensures |r.dishes| <= |p.dishes| + 1
  {
    var q := Trim(p.input);
    if |q| == 0 then p
    else if HasNameIgnoringCase(p.dishes, q) then p.(input := "")
    else
      match FetchDish(q, catalog)
      case None => p
      case Some(meal) => AddMeal(p, meal)
  }

  /** The two versions differ only when the catalog answers with a meal whose
      name clashes with an added dish although the typed text did not. */
  lemma AddDishAgreesUnlessRenamed(p: Page, catalog: Catalog)
    requires !Blank(p.input) && !HasNameIgnoringCase(p.dishes, Trim(p.input))
    requires FetchDish(Trim(p.input), catalog).Some? ==>
               !HasNameIgnoringCase(p.dishes, FetchDish(Trim(p.input), catalog).value.name)
    ensures AddDish(p, catalog) == AddDishAsWritten(p, catalog)
  {
  }

  /** The typed-text check lets a duplicate through: when the catalog's first
      hit for a new-looking text is a dish already added, the as-written
      `addDish` pushes it a second time. */
  lemma AsWrittenAddsDuplicate(p: Page, catalog: Catalog, meal: Meal)
    requires !Blank(p.input) && !HasNameIgnoringCase(p.dishes, Trim(p.input))
    requires FetchDish(Trim(p.input), catalog) == Some(meal)
    requires HasNameIgnoringCase(p.dishes, meal.name)
    ensures !DistinctNames(AddDishAsWritten(p, catalog).dishes)
    ensures AddDish(p, catalog).dishes == p.dishes
  {
    var r := AddDishAsWritten(p, catalog).dishes;
    var i :| 0 <= i < |p.dishes| && SameIgnoringCase(p.dishes[i].name, meal.name);
    assert r[i] == p.dishes[i] && r[|p.dishes|] == DishOf(meal);
  }

  /** The concrete case: "Spicy Arrabiata Penne" is on the list, the user
      types "Arrabiata", and the catalog's first hit is that same dish. */
  lemma ArrabiataAddedTwice(p: Page, penne: Meal, catalog: Catalog)
    requires penne.name == "Spicy Arrabiata Penne"
    requires catalog("Arrabiata") == Fetched(Some([penne]))
    requires p.dishes == [DishOf(penne)] && p.input == "Arrabiata"
    ensures DistinctNames(p.dishes)
    ensures AddDishAsWritten(p, catalog).dishes == [DishOf(penne), DishOf(penne)]
    ensures !DistinctNames(AddDishAsWritten(p, catalog).dishes)
    ensures AddDish(p, catalog) == p.(input := "")
  {
    ArrabiataLooksNew(p.dishes, penne);
    assert FetchDish(Trim(p.input), catalog) == Some(penne);
    AsWrittenAddsDuplicate(p, catalog, penne);
    assert AddDish(p, catalog) == AddMeal(p, penne);
  }

  /** "Arrabiata" is its own trim and differs from "Spicy Arrabiata Penne"
      even up to case. */
  lemma ArrabiataLooksNew(dishes: seq<Dish>, penne: Meal)
    requires penne.name == "Spicy Arrabiata Penne" && dishes == [DishOf(penne)]
    ensures Trim("Arrabiata") == "Arrabiata" && !Blank("Arrabiata")
    ensures !HasNameIgnoringCase(dishes, "Arrabiata")
    ensures HasNameIgnoringCase(dishes, penne.name)
  {
    assert !IsSpace('A') && !IsSpace('a');
    TrimUnpadded("Arrabiata");
    assert |Lower(penne.name)| != |Lower("Arrabiata")|;
    assert SameIgnoringCase(dishes[0].name, penne.name);
  }

  /** A suggestion's `onclick` as written: the clicked name goes into the
      input and `addDish()` searches for it again, keeping the first hit. */
  function PickAsWritten(p: Page, k: int, catalog: Catalog): (r: Page)
    ensures !Clickable(p, k) ==> r == p
    ensures Clickable(p, k) ==>
              r == AddDishAsWritten(p.(input := p.panel.items[k].name, panel := Hidden), catalog)
  {
    if Clickable(p, k) then
      AddDishAsWritten(p.(input := p.panel.items[k].name, panel := Hidden), catalog)
    else p
  }

  /** The second search can answer with a different meal, and that one is
      added instead of the one clicked. */
  lemma PickAsWrittenAddsOther(p: Page, k: int, catalog: Catalog, other: Meal)
    requires Clickable(p, k)
    requires var name := p.panel.items[k].name;
             && Trim(name) == name && !Blank(name)
             && !HasNameIgnoringCase(p.dishes, name)
             && FetchDish(name, catalog) == Some(other)
             && other != p.panel.items[k]
             && !HasNameIgnoringCase(p.dishes, other.name)
    ensures PickAsWritten(p, k, catalog).dishes == p.dishes + [DishOf(other)]
    ensures Pick(p, k).dishes == p.dishes + [DishOf(p.panel.items[k])]
    ensures other.name != p.panel.items[k].name ==>
              PickAsWritten(p, k, catalog).dishes != Pick(p, k).dishes
  {
    var a := PickAsWritten(p, k, catalog).dishes;
    var b := Pick(p, k).dishes;
    if other.name != p.panel.items[k].name {
      assert a[|p.dishes|].name != b[|p.dishes|].name;
    }
  }

  /** A suggestion's `onclick`, adding the meal that was clicked. */
  function Pick(p: Page, k: int): (r: Page)
    ensures !Clickable(p, k) ==> r == p
    ensures Clickable(p, k) && !HasNameIgnoringCase(p.dishes, p.panel.items[k].name) ==>
              r.dishes == p.dishes + [DishOf(p.panel.items[k])] && r.panel == Hidden
    ensures Clickable(p, k) && HasNameIgnoringCase(p.dishes, p.panel.items[k].name) ==>
              r.dishes == p.dishes && r.panel == Hidden && r.input == ""
    ensures DistinctNames(p.dishes) ==> DistinctNames(r.dishes)
  {
    if Clickable(p, k) then
      var meal := p.panel.items[k];
      AddMeal(p.(input := meal.name, panel := Hidden), meal)
    else p
  }

  /** `removeDish(name)`: exact-name filter, button refreshed, list cleared. */
  function RemoveDish(p: Page, name: string): (r: Page)
    ensures r.shoppingList == []
    ensures forall d :: d in r.dishes <==> d in p.dishes && d.name != name
    ensures r.generateDisabled <==> |r.dishes| == 0
    ensures r.input == p.input && r.panel == p.panel
    ensures r.dishes == Without(p.dishes, name)
  {
    UpdateGenerateButton(p.(dishes := Without(p.dishes, name))).(shoppingList := [])
  }

  /** A click on `#generate-btn`: nothing while it is disabled. */
  function Generate(p: Page): (r: Page)
    ensures r.dishes == p.dishes
    ensures r.(shoppingList := p.shoppingList) == p
    ensures p.generateDisabled ==> r == p
    ensures !p.generateDisabled ==>
              Ascending(r.shoppingList) && forall x :: x in r.shoppingList <==> InSomeDish(p.dishes, x)
  {
    if p.generateDisabled then p else p.(shoppingList := ShoppingList(p.dishes))
  }

  /** What holds of the page between events, with the handlers as written:
      the button is disabled exactly when nothing is added, and a shown panel
      holds one to five meals, none named exactly like an added dish. */
  predicate PageInv(p: Page)
  {
    && (p.generateDisabled <==> |p.dishes| == 0)
    && (p.panel.Shown? ==>
          && 1 <= |p.panel.items| <= MaxSuggestions
          && forall m :: m in p.panel.items ==> !NamedExactly(p.dishes, m.name))
  }

  /** The page with its debounced `showSuggestions`. */
  datatype Legacy = Legacy(page: Page, timer: Debouncer<()>)

  const Start := Legacy(Loaded, Fresh(SearchDelay))

  datatype Gesture =
    | Type(text: string)
    | EnterKey
    | AddClick
    | PickSuggestion(index: int)
    | RemoveClick(name: string)
    | GenerateClick
    | Tick

  datatype Input = Input(gesture: Gesture, at: int)

  /** One input, with the handlers as written. An `input` event (typing)
      calls the debounced function; setting the field from code does not.
      The timer callback reads the input and the collection as they are
      when it runs. */
  function Dispatch(l: Legacy, i: Input, catalog: Catalog): (r: Legacy)
    ensures i.gesture.Type? ==>
              && r.page == l.page.(input := i.gesture.text)
              && r.timer.pending == Some(Pending((), i.at + l.timer.wait))
    ensures !i.gesture.Type? && !i.gesture.Tick? ==> r.timer == l.timer
    ensures i.gesture.EnterKey? || i.gesture.AddClick? ==> r.page == AddDishAsWritten(l.page, catalog)
    ensures i.gesture.Tick? ==>
              && r.page.(panel := l.page.panel) == l.page
              && (!Due(l.timer, i.at) ==> r == l)
              && (Due(l.timer, i.at) ==> r.page.panel == ShowSuggestions(l.page, catalog)
                                         && r.timer.pending.None?)
    ensures i.gesture.GenerateClick? ==> r.page.dishes == l.page.dishes
  {
    match i.gesture
    case Type(text) => Legacy(l.page.(input := text), Step(Trace(l.timer, []), CallAt((), i.at)).final)
    case EnterKey => l.(page := AddDishAsWritten(l.page, catalog))
    case AddClick => l.(page := AddDishAsWritten(l.page, catalog))
    case PickSuggestion(k) => l.(page := PickAsWritten(l.page, k, catalog))
    case RemoveClick(name) => l.(page := RemoveDish(l.page, name))
    case GenerateClick => l.(page := Generate(l.page))
    case Tick =>
      var t := Step(Trace(l.timer, []), TickAt(i.at));
      if |t.invoked| > 0 then Legacy(l.page.(panel := ShowSuggestions(l.page, catalog)), t.final)
      else l
  }

  /** The same page with `addDish` and the suggestion click corrected. */
  function DispatchCorrected(l: Legacy, i: Input, catalog: Catalog): Legacy
  {
    match i.gesture
    case EnterKey => l.(page := AddDish(l.page, catalog))
    case AddClick => l.(page := AddDish(l.page, catalog))
    case PickSuggestion(k) => l.(page := Pick(l.page, k))
    case _ => Dispatch(l, i, catalog)
  }

  predicate Inv(l: Legacy)
  {
    PageInv(l.page) && l.timer.wait == SearchDelay
  }

  /** With the corrected handlers, no two dishes are named alike either. */
  predicate CorrectedInv(l: Legacy)
  {
    Inv(l) && DistinctNames(l.page.dishes)
  }

  /** `addDish` as written keeps the page invariant: an add hides the panel
      and enables the button, a refusal touches only the input. */
  lemma AddDishAsWrittenKeepsPageInv(p: Page, catalog: Catalog)
    requires PageInv(p)
    ensures PageInv(AddDishAsWritten(p, catalog))
  {
  }

  /** So does a suggestion click as written: it hides the panel first. */
  lemma PickAsWrittenKeepsPageInv(p: Page, k: int, catalog: Catalog)
    requires PageInv(p)
    ensures PageInv(PickAsWritten(p, k, catalog))
  {
    if Clickable(p, k) {
      AddDishAsWrittenKeepsPageInv(p.(input := p.panel.items[k].name, panel := Hidden), catalog);
    }
  }

  /** Adding keeps the page invariant: a successful add hides the panel, a
      refused one leaves the collection as it was. */
  lemma AddMealKeepsPageInv(p: Page, meal: Meal)
    requires PageInv(p)
    ensures PageInv(AddMeal(p, meal))
  {
  }

  /** Removing keeps the page invariant: shown suggestions were not named
      like any dish before, and the filter only drops dishes. */
  lemma RemoveKeepsPageInv(p: Page, name: string)
    requires PageInv(p)
    ensures PageInv(RemoveDish(p, name))
  {
    var r := RemoveDish(p, name);
    if r.panel.Shown? {
      forall m | m in r.panel.items ensures !NamedExactly(r.dishes, m.name) {
        forall i | 0 <= i < |r.dishes| ensures r.dishes[i].name != m.name {
          assert r.dishes[i] in p.dishes;
          var j :| 0 <= j < |p.dishes| && p.dishes[j] == r.dishes[i];
        }
      }
    }
  }

  lemma AddDishKeepsPageInv(p: Page, catalog: Catalog)
    requires PageInv(p)
    ensures PageInv(AddDish(p, catalog))
  {
    var q := Trim(p.input);
    if |q| > 0 && !HasNameIgnoringCase(p.dishes, q) && FetchDish(q, catalog).Some? {
      AddMealKeepsPageInv(p, FetchDish(q, catalog).value);
    }
  }

  lemma PickKeepsPageInv(p: Page, k: int)
    requires PageInv(p)
    ensures PageInv(Pick(p, k))
  {
    if Clickable(p, k) {
      var meal := p.panel.items[k];
      AddMealKeepsPageInv(p.(input := meal.name, panel := Hidden), meal);
    }
  }

  /** The timer callback shows only meals no dish is named after. */
  lemma ShowKeepsPageInv(p: Page, catalog: Catalog)
    requires PageInv(p)
    ensures PageInv(p.(panel := ShowSuggestions(p, catalog)))
  {
  }

  /** Every input, handled as written, keeps the invariant. */
  lemma DispatchKeepsInv(l: Legacy, i: Input, catalog: Catalog)
    requires Inv(l)
    ensures Inv(Dispatch(l, i, catalog))
  {
    match i.gesture
    case EnterKey => AddDishAsWrittenKeepsPageInv(l.page, catalog);
    case AddClick => AddDishAsWrittenKeepsPageInv(l.page, catalog);
    case PickSuggestion(k) => PickAsWrittenKeepsPageInv(l.page, k, catalog);
    case RemoveClick(name) => RemoveKeepsPageInv(l.page, name);
    case Tick => ShowKeepsPageInv(l.page, catalog);
    case _ =>
  }

  /** Every input, with the corrected handlers, keeps the stronger invariant. */
  lemma DispatchCorrectedKeepsInv(l: Legacy, i: Input, catalog: Catalog)
    requires CorrectedInv(l)
    ensures CorrectedInv(DispatchCorrected(l, i, catalog))
  {
    match i.gesture
    case EnterKey => AddDishKeepsPageInv(l.page, catalog);
    case AddClick => AddDishKeepsPageInv(l.page, catalog);
    case PickSuggestion(k) => PickKeepsPageInv(l.page, k);
    case RemoveClick(name) =>
      RemoveKeepsPageInv(l.page, name);
      WithoutKeepsDistinct(l.page.dishes, name);
    case _ => DispatchKeepsInv(l, i, catalog);
  }

  function DispatchAll(l: Legacy, ins: seq<Input>, catalog: Catalog): Legacy
    decreases |ins|
  {
    if |ins| == 0 then l else DispatchAll(Dispatch(l, ins[0], catalog), ins[1..], catalog)
  }

  function DispatchAllCorrected(l: Legacy, ins: seq<Input>, catalog: Catalog): Legacy
    decreases |ins|
  {
    if |ins| == 0 then l
    else DispatchAllCorrected(DispatchCorrected(l, ins[0], catalog), ins[1..], catalog)
  }

  /** Every page reachable from loading, with the handlers as written, has
      the button disabled exactly when nothing is added and shows no
      suggestion named like an added dish. */
  lemma {:induction false} ReachableKeepsInv(l: Legacy, ins: seq<Input>, catalog: Catalog)
    requires Inv(l)
    ensures Inv(DispatchAll(l, ins, catalog))
    decreases |ins|
  {
    if |ins| > 0 {
      DispatchKeepsInv(l, ins[0], catalog);
      ReachableKeepsInv(Dispatch(l, ins[0], catalog), ins[1..], catalog);
    }
  }

  /** With the corrected handlers, every reachable page also keeps dish
      names distinct up to case. */
  lemma {:induction false} ReachableCorrectedKeepsInv(l: Legacy, ins: seq<Input>, catalog: Catalog)
    requires CorrectedInv(l)
    ensures CorrectedInv(DispatchAllCorrected(l, ins, catalog))
    decreases |ins|
  {
    if |ins| > 0 {
      DispatchCorrectedKeepsInv(l, ins[0], catalog);
      ReachableCorrectedKeepsInv(DispatchCorrected(l, ins[0], catalog), ins[1..], catalog);
    }
  }

  lemma StartSatisfiesInv()
    ensures CorrectedInv(Start)
  {
  }

  /** Typing and waiting out the delay shows the suggestions for the text as
      it is when the timer runs. */
  lemma TypeThenWait(l: Legacy, text: string, at: int, now: int, catalog: Catalog)
    requires Inv(l) && now >= at + SearchDelay
    ensures var l1 := Dispatch(l, Input(Type(text), at), catalog);
            Dispatch(l1, Input(Tick, now), catalog).page.panel == ShowSuggestions(l1.page, catalog)
  {
  }

  /** A run of four inputs is the four inputs in turn. */
  lemma RunOfFour(l: Legacy, ins: seq<Input>, catalog: Catalog)
    requires |ins| == 4
    ensures DispatchAll(l, ins, catalog)
            == Dispatch(Dispatch(Dispatch(Dispatch(l, ins[0], catalog), ins[1], catalog), ins[2], catalog),
                        ins[3], catalog)
    ensures DispatchAllCorrected(l, ins, catalog)
            == DispatchCorrected(DispatchCorrected(DispatchCorrected(DispatchCorrected(
                 l, ins[0], catalog), ins[1], catalog), ins[2], catalog), ins[3], catalog)
  {
    var a, b, c := ins[1..], ins[2..], ins[3..];
    assert a[0] == ins[1] && a[1..] == b;
    assert b[0] == ins[2] && b[1..] == c;
    assert c[0] == ins[3] && c[1..] == [];
    var l1 := Dispatch(l, ins[0], catalog);
    var l2 := Dispatch(l1, ins[1], catalog);
    var l3 := Dispatch(l2, ins[2], catalog);
    assert DispatchAll(l3, c, catalog) == Dispatch(l3, ins[3], catalog);
    assert DispatchAll(l2, b, catalog) == DispatchAll(l3, c, catalog);
    assert DispatchAll(l1, a, catalog) == DispatchAll(l2, b, catalog);
    var m1 := DispatchCorrected(l, ins[0], catalog);
    var m2 := DispatchCorrected(m1, ins[1], catalog);
    var m3 := DispatchCorrected(m2, ins[2], catalog);
    assert DispatchAllCorrected(m3, c, catalog) == DispatchCorrected(m3, ins[3], catalog);
    assert DispatchAllCorrected(m2, b, catalog) == DispatchAllCorrected(m3, c, catalog);
    assert DispatchAllCorrected(m1, a, catalog) == DispatchAllCorrected(m2, b, catalog);
  }

  /** Typing the full name into an empty collection adds that dish, in both
      versions alike. */
  lemma PenneAddedOnce(p: Page, penne: Meal, catalog: Catalog)
    requires penne.name == "Spicy Arrabiata Penne"
    requires catalog(penne.name) == Fetched(Some([penne]))
    requires p.dishes == [] && p.input == penne.name
    ensures AddDishAsWritten(p, catalog).dishes == [DishOf(penne)]
    ensures AddDish(p, catalog) == AddDishAsWritten(p, catalog)
  {
    assert !IsSpace('S') && !IsSpace('e');
    TrimUnpadded(penne.name);
    assert !Blank(p.input) by { assert !IsSpace(p.input[0]); }
    assert !HasNameIgnoringCase([], penne.name);
    AddDishAgreesUnlessRenamed(p, catalog);
  }

  /** The duplicate as a run of the page from loading: type the full name
      and click Add, then type "Arrabiata" and click Add. As written the
      collection ends with the dish twice; corrected, once. */
  lemma ArrabiataRun(penne: Meal, catalog: Catalog)
    requires penne.name == "Spicy Arrabiata Penne"
    requires catalog(penne.name) == Fetched(Some([penne]))
    requires catalog("Arrabiata") == Fetched(Some([penne]))
    ensures var ins := [Input(Type(penne.name), 0), Input(AddClick, 1),
                        Input(Type("Arrabiata"), 2), Input(AddClick, 3)];
            && DispatchAll(Start, ins, catalog).page.dishes == [DishOf(penne), DishOf(penne)]
            && !DistinctNames(DispatchAll(Start, ins, catalog).page.dishes)
            && DispatchAllCorrected(Start, ins, catalog).page.dishes == [DishOf(penne)]
  {
    var ins := [Input(Type(penne.name), 0), Input(AddClick, 1),
                Input(Type("Arrabiata"), 2), Input(AddClick, 3)];
    RunOfFour(Start, ins, catalog);
    var l1 := Dispatch(Start, ins[0], catalog);
    PenneAddedOnce(l1.page, penne, catalog);
    var l2 := Dispatch(l1, ins[1], catalog);
    var l3 := Dispatch(l2, ins[2], catalog);
    ArrabiataAddedTwice(l3.page, penne, catalog);
    assert DispatchCorrected(Start, ins[0], catalog) == l1;
    assert DispatchCorrected(l1, ins[1], catalog) == l2;
    assert DispatchCorrected(l2, ins[2], catalog) == l3;
  }
}

=== FILE: recipe.dfy ===
/** Recipe records as the catalog returns them, and the ingredient scan that
    both clients run when a dish is added. */
module Recipe {
  import opened Wrappers
  import opened Text

  /** A record has ingredient fields `strIngredient1` .. `strIngredient20`. */
  const IngredientSlots := 20

  /** Both clients show at most the first five results of a search. */
  const MaxSuggestions: nat := 5

  /** A catalog record: `idMeal`, `strMeal`, `strMealThumb` and the numbered
      ingredient fields. A key missing from `ingredient` is an absent field
      (`undefined`); `None` is a field holding `null`. */
  datatype Meal = Meal(
    id: string,
    name: string,
    thumb: Option<string>,
    ingredient: map<int, Option<string>>)

  /** The lookup catalog: search-by-name, answering `{meals: [...] | null}` or failing. */
  type Catalog = string -> Fetch<Option<seq<Meal>>>

  /** Field `p` of `m`, `None` when absent or null. */
  function Field(m: Meal, p: int): Option<string>
  {
    if p in m.ingredient then m.ingredient[p] else None
  }

  /** Position `p` carries a usable ingredient: present and not blank. */
  predicate Kept(m: Meal, p: int)
  {
    Field(m, p).Some? && !Blank(Field(m, p).value)
  }

  /** The value stored for a kept position. */
  function TrimmedAt(m: Meal, p: int): string
    requires Kept(m, p)
  {
    Trim(Field(m, p).value)
  }

  /** The loop `for (i = from; i <= 20; i++)` with its truthiness-and-trim test. */
  function Scan(m: Meal, from: int): (r: seq<string>)
    requires 1 <= from <= IngredientSlots + 1
    ensures |r| <= IngredientSlots + 1 - from
    decreases IngredientSlots + 1 - from
  {
    if from > IngredientSlots then []
    else
      var field := Field(m, from);
      var here :=
        if field.Some? && field.value != "" && Trim(field.value) != "" then [Trim(field.value)]
        else [];
      here + Scan(m, from + 1)
  }

  /** Every item the scan yields is non-empty and already trimmed. */
  lemma {:induction false} ScanTrimmed(m: Meal, from: int)
    requires 1 <= from <= IngredientSlots + 1
    ensures forall k :: 0 <= k < |Scan(m, from)| ==>
              |Scan(m, from)[k]| > 0 && Trim(Scan(m, from)[k]) == Scan(m, from)[k]
    decreases IngredientSlots + 1 - from
  {
    if from <= IngredientSlots {
      ScanTrimmed(m, from + 1);
      var field := Field(m, from);
      if field.Some? && field.value != "" && Trim(field.value) != "" {
        TrimIdempotent(field.value);
      }
    }
  }

  /** `extractIngredients(meal)`. */
  function Ingredients(m: Meal): (r: seq<string>)
    ensures |r| <= IngredientSlots
    ensures forall k :: 0 <= k < |r| ==> |r[k]| > 0 && Trim(r[k]) == r[k]
  {
    ScanTrimmed(m, 1);
    Scan(m, 1)
  }

  /** Kept positions from `from` on, in increasing order. */
  ghost function KeptFrom(m: Meal, from: int): (ps: seq<int>)
    requires 1 <= from <= IngredientSlots + 1
    ensures forall k :: 0 <= k < |ps| ==> from <= ps[k] <= IngredientSlots && Kept(m, ps[k])
    ensures forall k, l :: 0 <= k < l < |ps| ==> ps[k] < ps[l]
    ensures forall p :: from <= p <= IngredientSlots && Kept(m, p) ==> p in ps
    decreases IngredientSlots + 1 - from
  {
    if from > IngredientSlots then []
    else (if Kept(m, from) then [from] else []) + KeptFrom(m, from + 1)
  }

  /** All kept positions of `m`, ascending. */
  ghost function KeptPositions(m: Meal): seq<int>
  {
    KeptFrom(m, 1)
  }

  /** One step of the scan: the loop's test is exactly `Kept`. */
  lemma ScanStep(m: Meal, from: int)
    requires 1 <= from <= IngredientSlots
    ensures Scan(m, from) ==
              (if Kept(m, from) then [TrimmedAt(m, from)] else []) + Scan(m, from + 1)
  {
    var field := Field(m, from);
    if Kept(m, from) {
      assert field.value != "" && Trim(field.value) != "";
    } else {
      assert !(field.Some? && field.value != "" && Trim(field.value) != "");
    }
  }

  /** `s` holds, item by item, the trimmed values at the kept positions `t`. */
  ghost predicate ValuesAt(m: Meal, s: seq<string>, t: seq<int>)
  {
    |s| == |t| && forall k :: 0 <= k < |t| ==> Kept(m, t[k]) && s[k] == TrimmedAt(m, t[k])
  }

  lemma {:induction false} ScanFollowsKept(m: Meal, from: int)
    requires 1 <= from <= IngredientSlots + 1
    ensures ValuesAt(m, Scan(m, from), KeptFrom(m, from))
    decreases IngredientSlots + 1 - from
  {
    if from <= IngredientSlots {
      ScanFollowsKept(m, from + 1);
      ScanFollowsStep(m, from, Scan(m, from + 1), KeptFrom(m, from + 1));
    }
  }

  /** The inductive step of `ScanFollowsKept`. */
  lemma ScanFollowsStep(m: Meal, from: int, s: seq<string>, t: seq<int>)
    requires 1 <= from <= IngredientSlots
    requires s == Scan(m, from + 1) && t == KeptFrom(m, from + 1)
    requires ValuesAt(m, s, t)
    ensures ValuesAt(m, Scan(m, from), KeptFrom(m, from))
  {
    ScanStep(m, from);
    if Kept(m, from) {
      assert KeptFrom(m, from) == [from] + t;
      ConsFollows(m, from, s, t);
    } else {
      assert KeptFrom(m, from) == [] + t == t;
      assert Scan(m, from) == [] + s == s;
    }
  }

  /** Prepending a kept position and its value keeps the two lists in step. */
  lemma ConsFollows(m: Meal, p: int, s: seq<string>, t: seq<int>)
    requires Kept(m, p) && ValuesAt(m, s, t)
    ensures ValuesAt(m, [TrimmedAt(m, p)] + s, [p] + t)
  {
    var s1, t1 := [TrimmedAt(m, p)] + s, [p] + t;
    forall k | 0 <= k < |t1| ensures Kept(m, t1[k]) && s1[k] == TrimmedAt(m, t1[k]) {
      ConsFollowsAt(m, p, s, t, k);
    }
  }

  lemma ConsFollowsAt(m: Meal, p: int, s: seq<string>, t: seq<int>, k: int)
    requires Kept(m, p) && ValuesAt(m, s, t) && 0 <= k <= |t|
    ensures Kept(m, ([p] + t)[k]) && ([TrimmedAt(m, p)] + s)[k] == TrimmedAt(m, ([p] + t)[k])
  {
    if k > 0 {
      assert ([p] + t)[k] == t[k - 1] && ([TrimmedAt(m, p)] + s)[k] == s[k - 1];
    }
  }

  /** Positions from `from` up to `until` without a usable ingredient
      contribute nothing. */
  lemma {:induction false} ScanSkipsUnkept(m: Meal, from: int, until: int)
    requires 1 <= from <= until <= IngredientSlots + 1
    requires forall p :: from <= p < until ==> !Kept(m, p)
    ensures Scan(m, from) == Scan(m, until)
    decreases until - from
  {
    if from < until {
      assert Scan(m, from) == Scan(m, from + 1) by {
        assert !Kept(m, from);
        ScanStep(m, from);
        assert Scan(m, from) == [] + Scan(m, from + 1);
      }
      ScanSkipsUnkept(m, from + 1, until);
    }
  }

  /** Extraction yields, for each kept position in increasing order, that
      position's trimmed value, and nothing else. */
  lemma IngredientsFollowPositions(m: Meal)
    ensures |Ingredients(m)| == |KeptPositions(m)|
    ensures forall k :: 0 <= k < |Ingredients(m)| ==>
              Ingredients(m)[k] == TrimmedAt(m, KeptPositions(m)[k])
  {
    ScanFollowsKept(m, 1);
  }

  lemma ExampleTrims()
    ensures Trim("Flour") == "Flour" && Trim(" Sugar ") == "Sugar" && Trim("Salt") == "Salt"
    ensures !Blank("Flour") && !Blank(" Sugar ") && !Blank("Salt")
  {
    assert LeadingSpaces(" Sugar ") == 1 && TrailingSpaces(" Sugar ") == 1;
    assert LeadingSpaces("Salt") == 0 && TrailingSpaces("Salt") == 0;
    assert LeadingSpaces("Flour") == 0 && TrailingSpaces("Flour") == 0;
  }

  /** Field 1 = "Flour", field 3 = " Sugar ", field 20 = "Salt", every other
      position blank, null or missing. */
  predicate FlourSugarSalt(m: Meal)
  {
    && Field(m, 1) == Some("Flour")
    && Field(m, 3) == Some(" Sugar ")
    && Field(m, 20) == Some("Salt")
    && forall p :: 1 <= p <= IngredientSlots && p != 1 && p != 3 && p != 20 ==>
         Field(m, p).None? || Blank(Field(m, p).value)
  }

  lemma ExampleFromTwenty(m: Meal)
    requires Field(m, 20) == Some("Salt")
    ensures Scan(m, 20) == ["Salt"]
  {
    ExampleTrims();
    assert Kept(m, 20) && TrimmedAt(m, 20) == "Salt";
    ScanStep(m, 20);
  }

  lemma ExampleFromFour(m: Meal)
    requires FlourSugarSalt(m)
    ensures Scan(m, 4) == ["Salt"]
  {
    ScanSkipsUnkept(m, 4, 20);
    ExampleFromTwenty(m);
  }

  lemma ExampleFromThree(m: Meal)
    requires Field(m, 3) == Some(" Sugar ") && Scan(m, 4) == ["Salt"]
    ensures Scan(m, 3) == ["Sugar", "Salt"]
  {
    ExampleTrims();
    assert Kept(m, 3) && TrimmedAt(m, 3) == "Sugar";
    ScanStep(m, 3);
    assert Scan(m, 3) == ["Sugar"] + ["Salt"];
  }

  /** Any record with fields 1 "Flour", 3 " Sugar ", 20 "Salt" and no other
      non-blank field extracts to
      ["Flour", "Sugar", "Salt"]: blanks skipped, order kept. */
  lemma ExtractionExample(m: Meal)
    requires FlourSugarSalt(m)
    ensures Ingredients(m) == ["Flour", "Sugar", "Salt"]
  {
    ExampleFromFour(m);
    ExampleFromThree(m);
    assert Field(m, 2).None? || Blank(Field(m, 2).value);
    ExampleFromTwo(m);
    ExampleFromOne(m);
  }

  lemma ExampleFromTwo(m: Meal)
    requires !Kept(m, 2) && Scan(m, 3) == ["Sugar", "Salt"]
    ensures Scan(m, 2) == ["Sugar", "Salt"]
  {
    ScanSkipsUnkept(m, 2, 3);
  }

  lemma ExampleFromOne(m: Meal)
    requires Field(m, 1) == Some("Flour") && Scan(m, 2) == ["Sugar", "Salt"]
    ensures Scan(m, 1) == ["Flour", "Sugar", "Salt"]
  {
    assert Kept(m, 1) && TrimmedAt(m, 1) == "Flour" by { ExampleTrims(); }
    ScanStep(m, 1);
    assert Scan(m, 1) == ["Flour"] + ["Sugar", "Salt"];
  }

  /** The record above exists: blanks, a null and a field past 20 included. */
  lemma ExtractionExampleHolds()
    ensures Ingredients(Meal("1", "Cake", None,
              map[1 := Some("Flour"), 2 := Some("  "), 3 := Some(" Sugar "),
                  4 := None, 5 := Some(""), 20 := Some("Salt"), 21 := Some("Egg")]))
            == ["Flour", "Sugar", "Salt"]
  {
    var m := Meal("1", "Cake", None,
      map[1 := Some("Flour"), 2 := Some("  "), 3 := Some(" Sugar "),
          4 := None, 5 := Some(""), 20 := Some("Salt"), 21 := Some("Egg")]);
    assert Blank("  ") by { assert IsSpace(' '); }
    ExtractionExample(m);
  }
}

=== FILE: selector.dfy ===
/** The React `DishSearch` component: the typed text, at most five
    suggestions and a selection cursor, driven by the debounced search effect,
    the keyboard, the mouse and the add button. */
module Selector {
  import opened Wrappers
  import opened Text
  import opened Seqs
  import opened Recipe
  import opened Server

  /** The `input`, `suggestions` and `selectedIndex` hooks (-1: nothing selected). */
  datatype Search = Search(input: string, suggestions: seq<Meal>, selected: int)

  const Initial := Search("", [], -1)

  /** The selector invariant: few suggestions, and whenever some are shown the
      cursor is -1 or points at one of them. */
  predicate Valid(s: Search)
  {
    && -1 <= s.selected
    && |s.suggestions| <= MaxSuggestions
    && (|s.suggestions| > 0 ==> s.selected < |s.suggestions|)
  }

  /** A handler's effect: the new state and the meal passed to `onAddDish`, if any. */
  datatype Outcome = Outcome(next: Search, added: Option<Meal>)

  /** What an awaited `axios.get` yields: an error status throws. */
  function Received(r: Response): (f: Fetch<Option<seq<Meal>>>)
    ensures f.Failed? <==> !r.Body?
    ensures r.Body? ==> f.data == r.meals
  {
    match r
    case Body(meals) => Fetched(meals)
    case _ => Failed
  }

  /** The timer callback of the search effect, for the `input` it captured,
      with the relay's answer applied whatever the state is by then. */
  function OnSearchResult(s: Search, query: string, catalog: Catalog): (r: Search)
    ensures r.input == s.input
    ensures Valid(s) ==> Valid(r)
    ensures Blank(query) ==> r == s.(suggestions := [])
    ensures !Blank(query) && catalog(query).Failed? ==> r == s
    ensures !Blank(query) && catalog(query) == Fetched(None) ==> r == s.(suggestions := [])
    ensures !Blank(query) && catalog(query).Fetched? && catalog(query).data.Some? ==>
              var meals := catalog(query).data.value;
              && r.selected == -1
              && |r.suggestions| == (if |meals| < MaxSuggestions then |meals| else MaxSuggestions)
              && forall i :: 0 <= i < |r.suggestions| ==> r.suggestions[i] == meals[i]
  {
    if |Trim(query)| > 0 then
      match Received(SearchEndpoint(Some(query), catalog))
      case Failed => s
      case Fetched(None) => s.(suggestions := [])
      case Fetched(Some(meals)) => s.(suggestions := Take(meals, MaxSuggestions), selected := -1)
    else s.(suggestions := [])
  }

  /** The typed-name lookup of `handleAdd`: `/api/dish/<input>`, then `meals[0]`. */
  function LookupByName(name: string, catalog: Catalog): (m: Option<Meal>)
    ensures m.Some? <==> catalog(name).Fetched? && catalog(name).data.Some?
                         && |catalog(name).data.value| > 0
    ensures m.Some? ==> m == BestMatch(catalog(name).data.value, name)
  {
    match Received(DishEndpoint(name, catalog))
    case Fetched(Some(meals)) => if |meals| > 0 then Some(meals[0]) else None
    case _ => None
  }

  /** `handleAdd(mealToAdd)`: commit a given meal, or look the typed name up. */
  function HandleAdd(s: Search, chosen: Option<Meal>, catalog: Catalog): (r: Outcome)
    ensures chosen.None? && s.input == "" ==> r == Outcome(s, None)
    ensures chosen.Some? ==> r == Outcome(Initial, chosen)
    ensures chosen.None? && s.input != "" ==>
              r == (if LookupByName(s.input, catalog).Some?
                    then Outcome(Initial, LookupByName(s.input, catalog))
                    else Outcome(s, None))
    ensures Valid(s) ==> Valid(r.next)
  {
    if chosen.None? && s.input == "" then Outcome(s, None)
    else
      var meal := if chosen.Some? then chosen else LookupByName(s.input, catalog);
      if meal.Some? then Outcome(Search("", [], -1), meal)
      else Outcome(s, None)
  }

  /** The keys `handleKeyDown` reacts to. */
  datatype Key = ArrowDown | ArrowUp | Enter | Escape | OtherKey

  /** A suggestion chosen by Enter or click: the input shows its name, the
      list closes, and `handleAdd` commits exactly that record. */
  function Commit(s: Search, i: int, catalog: Catalog): Outcome
    requires 0 <= i < |s.suggestions|
  {
    var meal := s.suggestions[i];
    HandleAdd(s.(input := meal.name, suggestions := []), Some(meal), catalog)
  }

  /** `handleKeyDown(e)`. */
  function KeyDown(s: Search, key: Key, catalog: Catalog): (r: Outcome)
    ensures Valid(s) ==> Valid(r.next)
    ensures key != Enter ==> r.added.None? && r.next.input == s.input
    ensures key != Enter && (|s.suggestions| == 0 || key == OtherKey) ==> r == Outcome(s, None)
    ensures key == Escape && |s.suggestions| > 0 ==>
              r.next == s.(suggestions := [], selected := -1)
    ensures Valid(s) && key == ArrowDown && |s.suggestions| > 0 ==>
              && s.selected <= r.next.selected <= s.selected + 1
              && r.next.selected <= |s.suggestions| - 1
              && r.next.suggestions == s.suggestions
    ensures Valid(s) && key == ArrowUp && |s.suggestions| > 0 ==>
              && r.next.selected == (if s.selected > 0 then s.selected - 1 else -1)
              && r.next.suggestions == s.suggestions
  {
    var n := |s.suggestions|;
    if n == 0 then
      if key == Enter then HandleAdd(s, None, catalog) else Outcome(s, None)
    else
      match key
      case ArrowDown =>
        Outcome(s.(selected := if s.selected < n - 1 then s.selected + 1 else s.selected), None)
      case ArrowUp =>
        Outcome(s.(selected := if s.selected > 0 then s.selected - 1 else -1), None)
      case Enter =>
        if s.selected < 0 then HandleAdd(s, None, catalog)
        else if s.selected < n then Commit(s, s.selected, catalog)
        else Outcome(s, None)  // `suggestions[selectedIndex].strMeal` throws
      case Escape => Outcome(s.(suggestions := [], selected := -1), None)
      case OtherKey => Outcome(s, None)
  }

  /** `onMouseEnter` of suggestion `i` (only rendered suggestions can be hovered). */
  function Hover(s: Search, i: int): (r: Search)
    ensures Valid(s) ==> Valid(r)
    ensures 0 <= i < |s.suggestions| ==> r.selected == i
    ensures r.input == s.input && r.suggestions == s.suggestions
  {
    if 0 <= i < |s.suggestions| then s.(selected := i) else s
  }

  /** `onClick` of suggestion `i`. */
  function Click(s: Search, i: int, catalog: Catalog): (r: Outcome)
    ensures Valid(s) ==> Valid(r.next)
    ensures 0 <= i < |s.suggestions| ==> r == Outcome(Initial, Some(s.suggestions[i]))
  {
    if 0 <= i < |s.suggestions| then Commit(s, i, catalog) else Outcome(s, None)
  }

  /** What can happen to the component. */
  datatype Event =
    | Typed(text: string)
    | SearchFired(query: string)
    | KeyPressed(key: Key)
    | Hovered(index: int)
    | Clicked(index: int)
    | AddClicked

  /** One event, with the catalog the relay consults. */
  function Handle(s: Search, e: Event, catalog: Catalog): (r: Outcome)
    ensures Valid(s) ==> Valid(r.next)
  {
    match e
    case Typed(text) => Outcome(s.(input := text), None)
    case SearchFired(query) => Outcome(OnSearchResult(s, query, catalog), None)
    case KeyPressed(key) => KeyDown(s, key, catalog)
    case Hovered(i) => Outcome(Hover(s, i), None)
    case Clicked(i) => Click(s, i, catalog)
    case AddClicked => HandleAdd(s, None, catalog)
  }

  /** Every reachable state is valid. */
  lemma {:induction false} ReachableValid(s: Search, evs: seq<Event>, catalog: Catalog)
    requires Valid(s)
    ensures Valid(HandleAll(s, evs, catalog))
    decreases |evs|
  {
    if |evs| > 0 {
      ReachableValid(Handle(s, evs[0], catalog).next, evs[1..], catalog);
    }
  }

  /** The state after a run of events. */
  function HandleAll(s: Search, evs: seq<Event>, catalog: Catalog): Search
    decreases |evs|
  {
    if |evs| == 0 then s else HandleAll(Handle(s, evs[0], catalog).next, evs[1..], catalog)
  }

  function Down(s: Search): Search
  {
    KeyDown(s, ArrowDown, _ => Failed).next
  }

  function Up(s: Search): Search
  {
    KeyDown(s, ArrowUp, _ => Failed).next
  }

  /** ArrowDown from "nothing selected" selects the first suggestion. */
  lemma DownFromNone(s: Search)
    requires |s.suggestions| > 0 && s.selected == -1
    ensures Down(s).selected == 0
  {
  }

  /** ArrowUp from the first suggestion or from nothing selects nothing. */
  lemma UpToNone(s: Search)
    requires s.selected == 0 || s.selected == -1
    ensures Up(s).selected == -1 || (|s.suggestions| == 0 && Up(s) == s)
  {
  }

  /** `n` presses of ArrowDown. */
  function PressDown(s: Search, n: nat): Search
  {
    if n == 0 then s else Down(PressDown(s, n - 1))
  }

  /** Pressing ArrowDown `n` times from nothing selected lands on suggestion
      `n - 1`, clamped at the last one: the cursor never wraps. */
  lemma {:induction false} PressDownClamps(s: Search, n: nat)
    requires Valid(s) && |s.suggestions| > 0 && s.selected == -1
    ensures PressDown(s, n).suggestions == s.suggestions
    ensures PressDown(s, n).selected ==
              (if n - 1 < |s.suggestions| - 1 then n - 1 else |s.suggestions| - 1)
  {
    if n > 0 {
      PressDownClamps(s, n - 1);
    }
  }

  /** Below the last suggestion, ArrowUp undoes ArrowDown. */
  lemma UpUndoesDown(s: Search)
    requires Valid(s) && |s.suggestions| > 0 && s.selected < |s.suggestions| - 1
    ensures Up(Down(s)) == s
  {
  }

  /** On a selected suggestion, ArrowDown undoes ArrowUp. */
  lemma DownUndoesUp(s: Search)
    requires Valid(s) && |s.suggestions| > 0 && s.selected >= 0
    ensures Down(Up(s)) == s
  {
  }

  /** Enter on a selected suggestion commits exactly that record, whatever the
      catalog would answer: no second lookup is made. */
  lemma EnterCommitsSelection(s: Search, c1: Catalog, c2: Catalog)
    requires Valid(s) && |s.suggestions| > 0 && s.selected >= 0
    ensures KeyDown(s, Enter, c1) == KeyDown(s, Enter, c2)
              == Outcome(Initial, Some(s.suggestions[s.selected]))
  {
  }

  /** Enter with nothing selected, or with no suggestions, falls back to the
      typed-name lookup. */
  lemma EnterFallsBack(s: Search, catalog: Catalog)
    requires |s.suggestions| == 0 || s.selected == -1
    ensures KeyDown(s, Enter, catalog) == HandleAdd(s, None, catalog)
  {
  }

  /** A lookup that finds nothing leaves the typed text in place. */
  lemma NotFoundKeepsInput(s: Search, catalog: Catalog)
    requires s.input != "" && LookupByName(s.input, catalog).None?
    ensures HandleAdd(s, None, catalog) == Outcome(s, None)
  {
  }

  /** A blank query never reaches the relay: any two catalogs give the same state. */
  lemma BlankQueryMakesNoLookup(s: Search, query: string, c1: Catalog, c2: Catalog)
    requires Blank(query)
    ensures OnSearchResult(s, query, c1) == OnSearchResult(s, query, c2)
  {
  }
}

=== FILE: seqs.dfy ===
/** Sequence helpers standing in for `Array.prototype.filter` and `slice`. */
module Seqs {

  /** `s.filter(keep)`. */
  function Filter<T(!new)>(s: seq<T>, keep: T -> bool): (r: seq<T>)
    ensures |r| <= |s|
    ensures forall x :: x in r <==> x in s && keep(x)
    ensures (forall i :: 0 <= i < |s| ==> keep(s[i])) ==> r == s
  {
    if |s| == 0 then []
    else (if keep(s[0]) then [s[0]] else []) + Filter(s[1..], keep)
  }

  /** Filtering works piecewise, so it keeps the relative order of what it keeps. */
  lemma {:induction false} FilterDistributes<T(!new)>(a: seq<T>, b: seq<T>, keep: T -> bool)
    ensures Filter(a + b, keep) == Filter(a, keep) + Filter(b, keep)
    decreases |a|
  {
    if |a| > 0 {
      assert (a + b)[1..] == a[1..] + b;
      FilterDistributes(a[1..], b, keep);
    } else {
      assert a + b == b;
    }
  }

  /** `s.slice(0, n)`. */
  function Take<T>(s: seq<T>, n: nat): (r: seq<T>)
    ensures |r| <= n && |r| <= |s|
    ensures |r| == n || |r| == |s|
    ensures forall i :: 0 <= i < |r| ==> r[i] == s[i]
  {
    if |s| <= n then s else s[..n]
  }

  /** A non-empty sequence has its head as a member. */
  lemma HeadIsMember<T>(s: seq<T>)
    ensures |s| > 0 ==> s[0] in s
  {
  }

  /** No element occurs twice. */
  predicate NoDuplicates<T(==)>(s: seq<T>)
  {
    forall i, j :: 0 <= i < j < |s| ==> s[i] != s[j]
  }
}

=== FILE: server.dfy ===
/** The relay server's two routes, `/api/search` and `/api/dish/:name`; the
    Express app and its serverless copy implement them identically. */
module Server {
  import opened Wrappers
  import opened Text
  import opened Recipe

  /** What a route answers: status 400, status 500, or a `{meals}` body. */
  datatype Response = BadRequest | ServerError | Body(meals: Option<seq<Meal>>)

  /** Index of the first meal named `name` up to letter case. */
  function FirstSameName(meals: seq<Meal>, name: string): (r: Option<nat>)
    ensures r.Some? ==> r.value < |meals| && SameIgnoringCase(meals[r.value].name, name)
    ensures r.Some? ==> forall j :: 0 <= j < r.value ==> !SameIgnoringCase(meals[j].name, name)
    ensures r.None? ==> forall j :: 0 <= j < |meals| ==> !SameIgnoringCase(meals[j].name, name)
  {
    if |meals| == 0 then None
    else if SameIgnoringCase(meals[0].name, name) then Some(0)
    else
      match FirstSameName(meals[1..], name)
      case None => None
      case Some(k) => Some(k + 1)
  }

  /** `meals.find(m => m.strMeal.toLowerCase() === name.toLowerCase()) || meals[0]`,
      `undefined` for an empty list. */
  function BestMatch(meals: seq<Meal>, name: string): (r: Option<Meal>)
    ensures r.Some? <==> |meals| > 0
    ensures r.Some? ==> r.value in meals
    ensures (exists i :: 0 <= i < |meals| && SameIgnoringCase(meals[i].name, name)) ==>
              r.Some? && SameIgnoringCase(r.value.name, name)
              && exists k :: 0 <= k < |meals| && meals[k] == r.value
                   && forall j :: 0 <= j < k ==> !SameIgnoringCase(meals[j].name, name)
    ensures (forall i :: 0 <= i < |meals| ==> !SameIgnoringCase(meals[i].name, name)) ==>
              r == (if |meals| > 0 then Some(meals[0]) else None)
  {
    match FirstSameName(meals, name)
    case Some(k) => Some(meals[k])
    case None => if |meals| > 0 then Some(meals[0]) else None
  }

  /** `GET /api/dish/:name`: one catalog search, answered with the best match
      wrapped in a one-element list, or `{meals: null}`. */
  function DishEndpoint(name: string, catalog: Catalog): (r: Response)
    ensures !r.BadRequest?
    ensures r.ServerError? <==> catalog(name).Failed?
    ensures r.Body? && r.meals.Some? ==>
              |r.meals.value| == 1 && catalog(name).Fetched? && catalog(name).data.Some?
              && r.meals.value[0] in catalog(name).data.value
    ensures r.Body? && r.meals.Some? ==>
              BestMatch(catalog(name).data.value, name).Some?
              && r.meals.value == [BestMatch(catalog(name).data.value, name).value]
    ensures r.Body? && r.meals.None? <==>
              catalog(name).Fetched? && (catalog(name).data.None? || |catalog(name).data.value| == 0)
  {
    match catalog(name)
    case Failed => ServerError
    case Fetched(None) => Body(None)
    case Fetched(Some(meals)) =>
      match BestMatch(meals, name)
      case None => Body(None)
      case Some(m) => Body(Some([m]))
  }

  /** The query parameter `q` is missing or empty, which `!q` rejects. */
  predicate MissingQuery(q: Option<string>)
  {
    q.None? || q.value == ""
  }

  /** `GET /api/search?q=`: rejected without a lookup when `q` is missing or
      empty; otherwise the catalog's answer is relayed unchanged. */
  function SearchEndpoint(q: Option<string>, catalog: Catalog): (r: Response)
    ensures r.BadRequest? <==> MissingQuery(q)
    ensures !MissingQuery(q) ==>
              (r.ServerError? <==> catalog(q.value).Failed?)
              && (catalog(q.value).Fetched? ==> r == Body(catalog(q.value).data))
  {
    if MissingQuery(q) then BadRequest
    else
      match catalog(q.value)
      case Failed => ServerError
      case Fetched(meals) => Body(meals)
  }

  /** A rejected search never consults the catalog: any two catalogs give the same answer. */
  lemma SearchRejectsWithoutLookup(q: Option<string>, c1: Catalog, c2: Catalog)
    requires MissingQuery(q)
    ensures SearchEndpoint(q, c1) == SearchEndpoint(q, c2) == BadRequest
  {
  }

  /** With an exact (case-insensitive) hit anywhere in the list the route
      answers that hit, otherwise the list's head. */
  lemma DishEndpointPrefersExactName(name: string, catalog: Catalog, meals: seq<Meal>, i: nat)
    requires catalog(name) == Fetched(Some(meals))
    requires i < |meals| && SameIgnoringCase(meals[i].name, name)
    ensures DishEndpoint(name, catalog).Body?
    ensures DishEndpoint(name, catalog).meals.Some?
    ensures SameIgnoringCase(DishEndpoint(name, catalog).meals.value[0].name, name)
  {
  }
}

=== FILE: shopping.dfy ===
/** `generateShoppingList`: every dish's ingredients poured into a `Set`,
    turned into an array and sorted with the default comparison. */
module Shopping {
  import opened Text
  import opened Seqs
  import opened Dishes

  /** Strictly increasing under the default sort order, hence free of duplicates. */
  predicate Ascending(s: seq<string>)
  {
    forall i, j :: 0 <= i < j < |s| ==> Less(s[i], s[j])
  }

  /** `x` is an ingredient of some dish of the collection. */
  ghost predicate InSomeDish(dishes: seq<Dish>, x: string)
  {
    exists i :: 0 <= i < |dishes| && x in dishes[i].ingredients
  }

  /** The ingredients in the order the two nested `forEach` loops visit them. */
  function AllIngredients(dishes: seq<Dish>): (r: seq<string>)
    ensures forall x :: x in r <==> InSomeDish(dishes, x)
  {
    if |dishes| == 0 then []
    else
      var rest := AllIngredients(dishes[1..]);
      assert forall x :: InSomeDish(dishes[1..], x) ==> InSomeDish(dishes, x) by {
        forall x | InSomeDish(dishes[1..], x) ensures InSomeDish(dishes, x) {
          var i :| 0 <= i < |dishes| - 1 && x in dishes[1..][i].ingredients;
          assert x in dishes[i + 1].ingredients;
        }
      }
      assert forall x :: InSomeDish(dishes, x) && x !in dishes[0].ingredients ==>
                         InSomeDish(dishes[1..], x) by {
        forall x | InSomeDish(dishes, x) && x !in dishes[0].ingredients
          ensures InSomeDish(dishes[1..], x)
        {
          var i :| 0 <= i < |dishes| && x in dishes[i].ingredients;
          assert dishes[1..][i - 1] == dishes[i];
        }
      }
      dishes[0].ingredients + rest
  }

  /** `Array.from(new Set(xs))`: first occurrences, in insertion order. */
  function Dedup(xs: seq<string>): (r: seq<string>)
    ensures NoDuplicates(r)
    ensures forall x :: x in r <==> x in xs
    ensures |r| <= |xs|
  {
    if |xs| == 0 then []
    else
      var init := xs[..|xs| - 1];
      var last := xs[|xs| - 1];
      assert xs == init + [last];
      var d := Dedup(init);
      if last in d then d else d + [last]
  }

  /** `x` is below every element of an ascending `s` that it is below the head of. */
  lemma BelowHead(x: string, s: seq<string>)
    requires Ascending(s) && |s| > 0 && Less(x, s[0])
    ensures forall j :: 0 <= j < |s| ==> Less(x, s[j])
  {
    forall j | 0 < j < |s| ensures Less(x, s[j]) {
      LessTransitive(x, s[0], s[j]);
    }
  }

  /** Insertion of a new element into an ascending sequence. */
  function Insert(x: string, s: seq<string>): (r: seq<string>)
    requires Ascending(s) && x !in s
    ensures Ascending(r)
    ensures forall y :: y in r <==> y == x || y in s
    ensures |r| == |s| + 1
  {
    if |s| == 0 then [x]
    else if Less(x, s[0]) then
      BelowHead(x, s);
      [x] + s
    else
      LessTotal(x, s[0]);
      var t := Insert(x, s[1..]);
      assert forall y :: y in t ==> Less(s[0], y);
      [s[0]] + t
  }

  /** The default `sort`, applied to a duplicate-free array. */
  function Sort(xs: seq<string>): (r: seq<string>)
    requires NoDuplicates(xs)
    ensures Ascending(r)
    ensures forall y :: y in r <==> y in xs
    ensures |r| == |xs|
  {
    if |xs| == 0 then []
    else
      var rest := Sort(xs[1..]);
      assert xs[0] !in xs[1..];
      Insert(xs[0], rest)
  }

  /** `generateShoppingList`'s value: sorted, duplicate-free union of all ingredients. */
  function ShoppingList(dishes: seq<Dish>): (r: seq<string>)
    ensures Ascending(r)
    ensures forall x :: x in r <==> InSomeDish(dishes, x)
    ensures |dishes| == 0 ==> r == []
  {
    Sort(Dedup(AllIngredients(dishes)))
  }

  /** An ascending sequence never repeats an element. */
  lemma AscendingHasNoDuplicates(s: seq<string>)
    requires Ascending(s)
    ensures NoDuplicates(s)
  {
    forall i, j | 0 <= i < j < |s| ensures s[i] != s[j] {
      LessIrreflexive(s[i]);
    }
  }

  /** A set of strings has exactly one ascending arrangement. */
  lemma {:induction false} AscendingUnique(a: seq<string>, b: seq<string>)
    requires Ascending(a) && Ascending(b)
    requires forall x :: x in a <==> x in b
    ensures a == b
    decreases |a|
  {
    if |a| == 0 {
      HeadIsMember(b);
    } else {
      assert a[0] in b && b[0] in a;
      if a[0] != b[0] {
        var i :| 0 <= i < |a| && a[i] == b[0];
        var j :| 0 <= j < |b| && b[j] == a[0];
        assert Less(a[0], b[0]);
        assert Less(b[0], a[0]);
        LessAsymmetric(a[0], b[0]);
      }
      forall x ensures x in a[1..] <==> x in b[1..] {
        if x in a[1..] {
          var i :| 1 <= i < |a| && a[i] == x;
          LessIrreflexive(a[0]);
          assert x in b;
          assert x != b[0];
        }
        if x in b[1..] {
          var j :| 1 <= j < |b| && b[j] == x;
          LessIrreflexive(b[0]);
          assert x in a;
          assert x != a[0];
        }
      }
      AscendingUnique(a[1..], b[1..]);
      assert a == [a[0]] + a[1..] && b == [b[0]] + b[1..];
    }
  }

  /** The list depends on nothing but the union of the ingredients: not on
      dish order, repetition or how often it is generated. */
  lemma ShoppingListDependsOnlyOnUnion(a: seq<Dish>, b: seq<Dish>)
    requires forall x :: InSomeDish(a, x) <==> InSomeDish(b, x)
    ensures ShoppingList(a) == ShoppingList(b)
  {
    AscendingUnique(ShoppingList(a), ShoppingList(b));
  }

  /** Reordering the dishes does not change the list. */
  lemma ShoppingListIgnoresDishOrder(a: seq<Dish>, b: seq<Dish>)
    requires multiset(a) == multiset(b)
    ensures ShoppingList(a) == ShoppingList(b)
  {
    forall x ensures InSomeDish(a, x) <==> InSomeDish(b, x) {
      if InSomeDish(a, x) {
        var i :| 0 <= i < |a| && x in a[i].ingredients;
        assert a[i] in multiset(b);
        var j :| 0 <= j < |b| && b[j] == a[i];
      }
      if InSomeDish(b, x) {
        var j :| 0 <= j < |b| && x in b[j].ingredients;
        assert b[j] in multiset(a);
        var i :| 0 <= i < |a| && a[i] == b[j];
      }
    }
    ShoppingListDependsOnlyOnUnion(a, b);
  }
}

=== FILE: text.dfy ===
/** String operations the controller relies on: `String.prototype.trim`,
    ASCII `toLowerCase` and the default comparison of `Array.prototype.sort`. */
module Text {

  /** The characters `trim` removes: ECMAScript WhiteSpace and LineTerminator. */
  predicate IsSpace(c: char)
  {
    var n := c as int;
    n == 0x09 || n == 0x0A || n == 0x0B || n == 0x0C || n == 0x0D || n == 0x20
    || n == 0xA0 || n == 0x1680 || (0x2000 <= n <= 0x200A)
    || n == 0x2028 || n == 0x2029 || n == 0x202F || n == 0x205F
    || n == 0x3000 || n == 0xFEFF
  }

  /** Empty or whitespace only. */
  predicate Blank(s: string)
  {
    forall i :: 0 <= i < |s| ==> IsSpace(s[i])
  }

  /** Length of the longest blank prefix. */
  function LeadingSpaces(s: string): (n: nat)
    ensures n <= |s|
    ensures Blank(s[..n])
    ensures n == |s| || !IsSpace(s[n])
  {
    if |s| == 0 || !IsSpace(s[0]) then 0
    else
      var k := LeadingSpaces(s[1..]);
      assert s[1..][..k] == s[1..k + 1];
      1 + k
  }

  /** Length of the longest blank suffix. */
  function TrailingSpaces(s: string): (n: nat)
    ensures n <= |s|
    ensures Blank(s[|s| - n..])
    ensures n == |s| || !IsSpace(s[|s| - n - 1])
  {
    if |s| == 0 || !IsSpace(s[|s| - 1]) then 0
    else
      var t := s[..|s| - 1];
      var k := TrailingSpaces(t);
      assert s[|s| - (k + 1)..] == t[|t| - k..] + [s[|s| - 1]];
      1 + k
  }

  /** `s.trim()`: `s` without its leading and trailing whitespace. */
  function Trim(s: string): (r: string)
    ensures |r| <= |s|
    ensures |r| == 0 <==> Blank(s)
    ensures |r| > 0 ==> !IsSpace(r[0]) && !IsSpace(r[|r| - 1])
  {
    var lead := LeadingSpaces(s);
    if lead == |s| then
      assert s[..lead] == s;
      []
    else
      var trail := TrailingSpaces(s);
      assert trail < |s| - lead;
      assert !Blank(s) by { assert !IsSpace(s[lead]); }
      s[lead..|s| - trail]
  }

  /** What `trim` removes is whitespace at the two ends and nothing else. */
  lemma TrimIsSlice(s: string)
    ensures exists i :: 0 <= i <= |s| - |Trim(s)| && Trim(s) == s[i..i + |Trim(s)|]
              && Blank(s[..i]) && Blank(s[i + |Trim(s)|..])
  {
    var lead := LeadingSpaces(s);
    if lead == |s| {
      assert s[..lead] == s;
      assert s[0..0] == [];
    } else {
      var trail := TrailingSpaces(s);
      assert Trim(s) == s[lead..lead + |Trim(s)|];
    }
  }

  /** A string that neither starts nor ends with whitespace is its own trim. */
  lemma TrimUnpadded(s: string)
    requires |s| > 0 && !IsSpace(s[0]) && !IsSpace(s[|s| - 1])
    ensures Trim(s) == s
  {
    assert LeadingSpaces(s) == 0 && TrailingSpaces(s) == 0;
    assert s[0..|s|] == s;
  }

  lemma {:induction false} TrimIdempotent(s: string)
    ensures Trim(Trim(s)) == Trim(s)
  {
    var t := Trim(s);
    if |t| > 0 {
      assert LeadingSpaces(t) == 0;
      assert TrailingSpaces(t) == 0;
      assert t[0..|t|] == t;
    }
  }

  /** ASCII part of `toLowerCase`. */
  function LowerChar(c: char): (r: char)
    ensures 'A' <= c <= 'Z' ==> 'a' <= r <= 'z' && r as int - c as int == 32
    ensures !('A' <= c <= 'Z') ==> r == c
  {
    if 'A' <= c <= 'Z' then (c as int + 32) as char else c
  }

  /** `s.toLowerCase()`, on the ASCII letters. */
  function Lower(s: string): (r: string)
    ensures |r| == |s|
    ensures forall i :: 0 <= i < |s| ==> r[i] == LowerChar(s[i])
  {
    seq(|s|, i requires 0 <= i < |s| => LowerChar(s[i]))
  }

  /** `a.toLowerCase() === b.toLowerCase()`. */
  predicate SameIgnoringCase(a: string, b: string)
  {
    Lower(a) == Lower(b)
  }

  /** Two names differing only in letter case compare equal. */
  lemma CaseVariantsAreSame()
    ensures SameIgnoringCase("Pasta", "PASTA")
    ensures !SameIgnoringCase("Pasta", "Pesto")
  {
    assert Lower("Pasta")[1] == 'a' != 'e' == Lower("Pesto")[1];
  }

  /** The order of `Array.prototype.sort` without a comparator: lexicographic
      on characters, a proper prefix sorting first. */
  predicate Less(a: string, b: string)
    decreases |a|
  {
    if |b| == 0 then false
    else if |a| == 0 then true
    else if a[0] != b[0] then a[0] < b[0]
    else Less(a[1..], b[1..])
  }

  /** Independent description of the same order: `b` extends `a` properly, or
      they first differ at some `k` where `a` has the smaller character. */
  ghost predicate LessAt(a: string, b: string, k: nat)
  {
    k <= |a| && k < |b| && a[..k] == b[..k] && (k == |a| || a[k] < b[k])
  }

  lemma {:induction false} LessIsFirstDifference(a: string, b: string)
    ensures Less(a, b) <==> exists k: nat :: LessAt(a, b, k)
    decreases |a|
  {
    if Less(a, b) {
      LessHasWitness(a, b);
    }
    if exists k: nat :: LessAt(a, b, k) {
      var k: nat :| LessAt(a, b, k);
      WitnessGivesLess(a, b, k);
    }
  }

  lemma {:induction false} LessHasWitness(a: string, b: string)
    requires Less(a, b)
    ensures exists k: nat :: LessAt(a, b, k)
    decreases |a|
  {
    if |a| == 0 {
      assert LessAt(a, b, 0);
    } else if a[0] != b[0] {
      assert LessAt(a, b, 0);
    } else {
      LessHasWitness(a[1..], b[1..]);
      var k: nat :| LessAt(a[1..], b[1..], k);
      assert a[..k + 1] == [a[0]] + a[1..][..k];
      assert b[..k + 1] == [b[0]] + b[1..][..k];
      assert LessAt(a, b, k + 1);
    }
  }

  lemma {:induction false} WitnessGivesLess(a: string, b: string, k: nat)
    requires LessAt(a, b, k)
    ensures Less(a, b)
    decreases k
  {
    if |a| > 0 && k > 0 {
      assert a[0] == a[..k][0] == b[..k][0] == b[0];
      assert a[1..][..k - 1] == a[1..k];
      assert b[1..][..k - 1] == b[1..k];
      assert a[..k][1..] == a[1..k];
      assert b[..k][1..] == b[1..k];
      WitnessGivesLess(a[1..], b[1..], k - 1);
    }
  }

  lemma {:induction false} LessIrreflexive(a: string)
    ensures !Less(a, a)
    decreases |a|
  {
    if |a| > 0 {
      LessIrreflexive(a[1..]);
    }
  }

  lemma {:induction false} LessTransitive(a: string, b: string, c: string)
    requires Less(a, b) && Less(b, c)
    ensures Less(a, c)
    decreases |a|
  {
    if |a| > 0 && a[0] == b[0] && b[0] == c[0] {
      LessTransitive(a[1..], b[1..], c[1..]);
    }
  }

  lemma {:induction false} LessTotal(a: string, b: string)
    requires a != b
    ensures Less(a, b) || Less(b, a)
    decreases |a|
  {
    if |a| > 0 && |b| > 0 && a[0] == b[0] {
      assert a == [a[0]] + a[1..] && b == [b[0]] + b[1..];
      LessTotal(a[1..], b[1..]);
    }
  }

  lemma LessAsymmetric(a: string, b: string)
    requires Less(a, b)
    ensures !Less(b, a)
  {
    if Less(b, a) {
      LessTransitive(a, b, a);
      LessIrreflexive(a);
    }
  }
}

=== FILE: wrappers.dfy ===
/** Small failure-carrying datatypes shared by every module of the model. */
module Wrappers {

  /** A value that may be absent: JavaScript's `null` / `undefined`. */
  datatype Option<+T> = None | Some(value: T)

  /** The outcome of an awaited network call: it either throws (network error,
      non-2xx status, unparsable body) or yields a decoded body. */
  datatype Fetch<+T> = Failed | Fetched(data: T)
}
